=== FILE: README.md ===
# Monograph cleaning for GraphRAG, modelled in Dafny

This project models the core of `data_cleaning_for_GraphRAG.py`. The script
reads a cancer-research monograph in PDF form and writes its chapters as
JSON, ready for a GraphRAG index. The model covers the logic between reading
the PDF and writing the JSON:

- **Chapter map.** `detect_chapters` holds a hand-written list of nine
  chapters and computes each one's end page. The main loop then walks each
  chapter's page range, clamped to the document.
- **Running header and footer detection.** `detect_common_headers_footers`
  samples a window of pages and counts the first and last non-blank line of
  each page. It keeps the lines that reach `int(sampled * threshold)` votes,
  then adds the literal `icma` and every match of `Cancer Monograph\s*\d+` on
  any page.
- **Page cleaning.** `clean_page_text` does four things in order:
  - drops lines whose stripped form is a running header or footer;
  - joins words hyphenated across a line break;
  - applies the paragraph-merge rewrite;
  - normalises whitespace.
- **Table formatting.** `format_tables_as_json` cleans the header row,
  substituting `column-<i>` for blank headers. It maps each data row to a
  record and keeps the rows that hold some value.
- **Chapter assembly in the main loop.** Cleaned page texts are concatenated
  with a trailing space each, and the result is stripped. Tables are named
  `Table on Page <n>, Index <i>`.

The PDF reader is not modelled. A document is a sequence of `Page` values,
each holding what `page.get_text()` returns and the cell grids that
`page.find_tables()` / `extract()` return. A cell is `Option<string>`, where
`None` stands for Python's `None`. Python strings are `seq<char>`.

The modules follow the script's structure:

| module | file | models |
|---|---|---|
| `Wrappers`, `Seqs`, `Text` | `wrappers.dfy`, `seqs.dfy`, `text.dfy` | `Option`, list filtering, and the Python string primitives the script uses: `str.strip`, `split('\n')`, `'\n'.join`, `\s+` collapsing, decimal formatting |
| `Chapters` | `chapters.dfy` | `detect_chapters` and the page ranges of the main loop |
| `HeaderFooter` | `header_footer.dfy` | `detect_common_headers_footers` |
| `PageCleaner` | `page_cleaner.dfy` | `clean_page_text` |
| `Tables` | `tables.dfy` | `format_tables_as_json` |
| `Extraction` | `extraction.dfy` | the main loop: chapter content, table naming, chapter records |

Regular expressions are modelled as the scans they perform:

- `re.sub` is leftmost and non-overlapping.
- `findall` resumes after each match.
- Lookarounds read the original text.
- `\s` is Python's `str.isspace` set; `\w` and `\d` are their ASCII parts.

Two behaviours of the code are modelled as written. Both are easy to misread:

- **Line 85, the paragraph-merge rewrite**, is meant to join broken lines
  except before list items, new paragraphs or headings. The negative
  lookahead's alternative `\s*.` matches any character that follows a
  newline, so the rewrite can only ever turn a lone newline at the very end
  of the text into a space. `PageCleaner.MergeableOnlyAtEnd` proves this.
  `PageCleaner.MergeIsInvisible` proves that line 87 erases even that.
  Every other newline, list markers included, becomes a space in the
  whitespace normalisation (`PageCleaner.CleanFlattensListBreak`). The
  comment on line 85 says lines before list items, new paragraphs and
  headings keep their break. The code does not keep them, and the model
  follows the code.
- **Line 109, the cell-cleaning class `[n\r]+`**, names the letter `n`, not a
  newline. The model reproduces it: `Tables.CleanCellSplitsAtLetterN` shows
  that `"nine"` becomes `"i e"`, and `Tables.CleanCellKeepsNewline` shows that
  a newline inside a cell survives.

A page's cleaned text never holds a double space. A chapter's content can:
a page whose text cleans to the empty string still adds its `" "` (lines
147-149). So `Extraction.ChapterContentSpec` states that whitespace is plain spaces,
not that it is single, and that there is none at either end.
`Extraction.ChapterContentJoin` states the content exactly: the cleaned text
of the non-empty pages, joined by single spaces, then stripped.

## Model

| member | source | states |
|---|---|---|
| Text.Strip | GraphRAG/data_cleaning_for_GraphRAG.py:50-55 | `str.strip()`: the result is the infix of the input between its leading and trailing whitespace runs, has no whitespace at either end, and equals the input when the input already has none |
| Text.Split | GraphRAG/data_cleaning_for_GraphRAG.py:46 | `split('\n')` yields at least one piece, no piece contains the separator, and joining the pieces with it gives back the text |
| Text.SplitJoin | GraphRAG/data_cleaning_for_GraphRAG.py:76-83 | splitting the join of newline-free lines gives back exactly those lines |
| Text.CollapseRuns | GraphRAG/data_cleaning_for_GraphRAG.py:87 | `re.sub(r'\s+', ' ', t)`: every whitespace character left is a single space, never next to another one, and the result is empty only for empty input |
| Text.CollapseRunsKeeps | GraphRAG/data_cleaning_for_GraphRAG.py:87 | collapsing whitespace runs neither adds, drops nor reorders a non-space character |
| Text.CollapseAtRun | GraphRAG/data_cleaning_for_GraphRAG.py:87 | a maximal run of class characters between two pieces of text becomes exactly one space, and the pieces on either side are collapsed on their own |
| Text.StripKeeps | GraphRAG/data_cleaning_for_GraphRAG.py:87 | stripping neither adds, drops nor reorders a non-space character |
| Text.DecimalRoundTrip | GraphRAG/data_cleaning_for_GraphRAG.py:159 | the decimal text of a number reads back as that number |
| Text.DecimalInjective | GraphRAG/data_cleaning_for_GraphRAG.py:159 | different numbers format to different decimal texts |
| Chapters.ChapterStartsFacts | GraphRAG/data_cleaning_for_GraphRAG.py:18-28 | the hand-written list holds nine chapters numbered 1 to 9, with ascending start pages beginning at page 28 |
| Chapters.WithEndPages | GraphRAG/data_cleaning_for_GraphRAG.py:30-33 | each chapter keeps its number, title and start page; each ends the page before the next starts, and the last ends on the document's last page |
| Chapters.DetectChapters | GraphRAG/data_cleaning_for_GraphRAG.py:17-35 | the map has nine chapters; chapter `i` is numbered `i + 1`, carries the `i`-th listed title and starts on the `i`-th listed page (28 or later); each chapter but the last ends on the page before the next one starts, and the last ends on the document's last page |
| Chapters.Range | GraphRAG/data_cleaning_for_GraphRAG.py:142 | `range(lo, hi)` has `hi - lo` elements (none when `hi <= lo`), the `k`-th being `lo + k` |
| Chapters.RangeAppend | GraphRAG/data_cleaning_for_GraphRAG.py:142 | adjacent ranges concatenate to the range spanning both |
| Chapters.ClampedRangeAppend | GraphRAG/data_cleaning_for_GraphRAG.py:142 | a range clamped by `min(end, len(doc))` followed by the rest of the document is the document from its start on |
| Chapters.ChapterRangesPartition | GraphRAG/data_cleaning_for_GraphRAG.py:30-33 | with ascending start pages, the chapters' clamped page ranges, walked in order, are exactly the pages from the first chapter's first page to the end of the document |
| Chapters.RangeCounts | GraphRAG/data_cleaning_for_GraphRAG.py:142 | each index of a range occurs in it exactly once and nothing else occurs |
| Chapters.StartsCoverDocument | GraphRAG/data_cleaning_for_GraphRAG.py:139-142 | with ascending start pages, the main loop visits every page from the first chapter's start to the end exactly once and no other page |
| Chapters.DetectedChaptersCoverDocument | GraphRAG/data_cleaning_for_GraphRAG.py:139-142 | for the monograph's chapter map, the main loop reads 0-based pages 27 to `len(doc) - 1`, each exactly once, in order |
| Chapters.TwoChapterDocument | GraphRAG/data_cleaning_for_GraphRAG.py:30-33 | chapters starting on pages 1 and 4 of a five-page document span pages 1-3 and 4-5, and the loop visits pages 0 to 4 |
| HeaderFooter.FirstNonBlankIndex | GraphRAG/data_cleaning_for_GraphRAG.py:49-52 | the line found is non-blank once stripped and every line before it is blank; when none is found every line is blank |
| HeaderFooter.LastNonBlankIndex | GraphRAG/data_cleaning_for_GraphRAG.py:53-56 | the line found is non-blank once stripped and every line after it is blank; when none is found every line is blank |
| HeaderFooter.SampleWindow | GraphRAG/data_cleaning_for_GraphRAG.py:41-42 | the window starts at the larger of 10 and a quarter of the page count (rounded down), and ends at the smaller of ten pages before the end and `sample_pages` pages after the start; it is empty for documents of 20 pages or fewer |
| HeaderFooter.SampleWindowExamples | GraphRAG/data_cleaning_for_GraphRAG.py:41-42 | 200 pages sample pages 50-69, 50 pages sample 12-31, 30 pages sample 10-19 |
| HeaderFooter.TallyWindow | GraphRAG/data_cleaning_for_GraphRAG.py:44-56 | the sampled count is at most the window size, and no line gets more votes than there are sampled pages |
| HeaderFooter.TallySampledCount | GraphRAG/data_cleaning_for_GraphRAG.py:44-48 | `num_sampled` is the number of pages in the window with more than two lines |
| HeaderFooter.TallyHeaderCount | GraphRAG/data_cleaning_for_GraphRAG.py:49-52 | a line's header votes are the number of sampled pages whose first non-blank line, stripped, is that line |
| HeaderFooter.TallyFooterCount | GraphRAG/data_cleaning_for_GraphRAG.py:53-56 | a line's footer votes are the number of sampled pages whose last non-blank line, stripped, is that line |
| HeaderFooter.TallyCountsPages | GraphRAG/data_cleaning_for_GraphRAG.py:44-56 | the three counts of the tally, all at once, as sets of pages |
| HeaderFooter.MinCountHalf | GraphRAG/data_cleaning_for_GraphRAG.py:59 | with threshold 0.5, `int(num_sampled * threshold)` is half the sampled count rounded down |
| HeaderFooter.MonographPrefixLeadIsUnique | GraphRAG/data_cleaning_for_GraphRAG.py:64 | the pattern's first character, `C`, occurs nowhere else in its literal part and is neither whitespace nor a digit |
| HeaderFooter.MatchAt | GraphRAG/data_cleaning_for_GraphRAG.py:64 | a match of `prefix\s*\d+` lies inside the text and is longer than the prefix; `MatchShape` and `MatchComplete` are its soundness and completeness partners |
| HeaderFooter.MatchShape | GraphRAG/data_cleaning_for_GraphRAG.py:64 | a match is the prefix, then only whitespace and digits, ending in a digit, and the digit run is greedy: no digit follows the match |
| HeaderFooter.MatchComplete | GraphRAG/data_cleaning_for_GraphRAG.py:64 | wherever the prefix is followed by whitespace and a digit a match starts there, and it runs to the end of that digit run |
| HeaderFooter.MatchStartsWithLead | GraphRAG/data_cleaning_for_GraphRAG.py:64 | a match starts with the prefix's first character |
| HeaderFooter.NoLeadInsideMatch | GraphRAG/data_cleaning_for_GraphRAG.py:64 | past its first position, a match holds no copy of the prefix's first character |
| HeaderFooter.NoMatchInside | GraphRAG/data_cleaning_for_GraphRAG.py:64-67 | no match starts strictly inside another, so skipping past a match loses none |
| HeaderFooter.FindAfterMatch | GraphRAG/data_cleaning_for_GraphRAG.py:67 | resuming after a match keeps the scan's results equal to the set of all matches from the current position |
| HeaderFooter.FindAfterMiss | GraphRAG/data_cleaning_for_GraphRAG.py:67 | advancing one character where no match starts keeps the scan's results equal to the set of all matches |
| HeaderFooter.FindAllFindsAll | GraphRAG/data_cleaning_for_GraphRAG.py:64-67 | the left-to-right `findall` scan returns exactly the texts of all matches starting anywhere in the page |
| HeaderFooter.ScannedFootersAreMatches | GraphRAG/data_cleaning_for_GraphRAG.py:66-68 | what one page adds to the footers is exactly its stripped matches |
| HeaderFooter.UnionOverPagesMembers | GraphRAG/data_cleaning_for_GraphRAG.py:65-68 | a string is added by the loop over pages exactly when some page adds it |
| HeaderFooter.MonographFootersAreAllMatches | GraphRAG/data_cleaning_for_GraphRAG.py:63-68 | a string is among the pattern-derived footers exactly when it is a stripped match on some page |
| HeaderFooter.MonographFootersSpec | GraphRAG/data_cleaning_for_GraphRAG.py:63-68 | the same for every string at once |
| HeaderFooter.DetectHeadersFooters | GraphRAG/data_cleaning_for_GraphRAG.py:37-71 | a line is a header exactly when it heads at least one and at least `min_count` sampled pages. A line is a footer exactly when it ends that many sampled pages, or is `icma`, or is a stripped match of the pattern on some page. There are no headers in a document of 20 pages or fewer |
| HeaderFooter.VoteBounds | GraphRAG/data_cleaning_for_GraphRAG.py:41-56 | at most `sample_pages` pages are sampled, and no line has more header or footer votes than that |
| HeaderFooter.DefaultDetection | GraphRAG/data_cleaning_for_GraphRAG.py:59-60 | with the default arguments, a line is a header exactly when it heads at least one and at least half (rounded down) of the sampled pages |
| PageCleaner.DropRunningLinesSpec | GraphRAG/data_cleaning_for_GraphRAG.py:76-81 | the kept lines are exactly those whose stripped form is neither a header nor a footer, each as often as in the page, in the page's order |
| PageCleaner.HyphenMatch | GraphRAG/data_cleaning_for_GraphRAG.py:84 | a match of `(\w+)\s*-\s*\n\s*(\w+)` starting at the scan position has two non-empty groups separated by a non-empty gap of whitespace and hyphens only; no match exists in text lacking a newline or a hyphen; `HyphenMatchShape` and `HyphenMatchComplete` are its soundness and completeness partners |
| PageCleaner.HyphenMatchComplete | GraphRAG/data_cleaning_for_GraphRAG.py:84 | wherever a word run, whitespace, a hyphen, whitespace holding a newline, and a word character follow the position, the match is found: group 1 is that word run and group 2 the whole following word run |
| PageCleaner.HyphenMatchSpacedBreak | GraphRAG/data_cleaning_for_GraphRAG.py:84 | whitespace between the hyphen and the newline still matches: `"cate- \ngory"` gives groups `"cate"` and `"gory"` |
| PageCleaner.HyphenMatchShape | GraphRAG/data_cleaning_for_GraphRAG.py:84 | group 1 is a run of word characters ending before a non-word character, the gap is whitespace around exactly one hyphen with a newline after the hyphen, and group 2 is a maximal run of word characters |
| PageCleaner.DehyphenateFromKeeps | GraphRAG/data_cleaning_for_GraphRAG.py:84 | the rewrite from any position keeps, in order, every character of the rest of the text that is neither whitespace nor a hyphen |
| PageCleaner.DehyphenateKeepsWords | GraphRAG/data_cleaning_for_GraphRAG.py:84 | de-hyphenation removes only hyphens and whitespace: every other character, word characters included, is unchanged and in order |
| PageCleaner.DehyphenateFromWithoutBreak | GraphRAG/data_cleaning_for_GraphRAG.py:84 | text without a newline or without a hyphen is left unchanged from any position |
| PageCleaner.DehyphenateWithoutBreak | GraphRAG/data_cleaning_for_GraphRAG.py:84 | text without a newline or without a hyphen is left unchanged |
| PageCleaner.DehyphenateJoinsWord | GraphRAG/data_cleaning_for_GraphRAG.py:84 | `"cate-\ngory"` becomes `"category"` |
| PageCleaner.DehyphenateChain | GraphRAG/data_cleaning_for_GraphRAG.py:84 | matches do not overlap: `"a-\nb-\nc"` becomes `"ab-\nc"`, not `"abc"` |
| PageCleaner.MergeableOnlyAtEnd | GraphRAG/data_cleaning_for_GraphRAG.py:85 | the merge pattern matches at a position exactly when it holds a final newline that does not follow another newline |
| PageCleaner.MergeRewritesOnlyFinalNewline | GraphRAG/data_cleaning_for_GraphRAG.py:85 | the merge rewrite leaves every character but the last unchanged |
| PageCleaner.MergeKeepsText | GraphRAG/data_cleaning_for_GraphRAG.py:85 | the merge rewrite keeps every non-whitespace character, hyphens included, in order |
| PageCleaner.MergeIsInvisible | GraphRAG/data_cleaning_for_GraphRAG.py:85-87 | normalising after the merge rewrite gives the same text as normalising without it |
| PageCleaner.NormalizeIsNormal | GraphRAG/data_cleaning_for_GraphRAG.py:87 | normalised text has no whitespace at either end, and its only whitespace is single spaces |
| PageCleaner.NormalizeFixesNormal | GraphRAG/data_cleaning_for_GraphRAG.py:87 | normalising text that is already normal changes nothing |
| PageCleaner.NormalizeKeepsText | GraphRAG/data_cleaning_for_GraphRAG.py:87 | normalisation keeps every non-whitespace character, hyphens included, in order |
| PageCleaner.NormalizeAtRun | GraphRAG/data_cleaning_for_GraphRAG.py:87 | a whitespace run between two non-space characters becomes exactly one space: `Normalize(a + w + b) == Normalize(a) + " " + Normalize(b)` |
| PageCleaner.CleanPageText | GraphRAG/data_cleaning_for_GraphRAG.py:73-89 | the cleaned text has no whitespace at either end and no newline; its only whitespace is single spaces |
| PageCleaner.CleanNormalText | GraphRAG/data_cleaning_for_GraphRAG.py:73-89 | cleaning text that is already normal returns it, or the empty string when the text is itself a header or footer |
| PageCleaner.CleanTwice | GraphRAG/data_cleaning_for_GraphRAG.py:73-89 | cleaning is idempotent, except that a cleaned page that is itself a header or footer cleans to the empty string |
| PageCleaner.CleanEmpty | GraphRAG/data_cleaning_for_GraphRAG.py:73-89 | the empty page cleans to the empty string |
| PageCleaner.CleanWithoutRunningLines | GraphRAG/data_cleaning_for_GraphRAG.py:76-87 | with no headers or footers, no line is dropped: cleaning is de-hyphenation, merge and normalisation of the whole text |
| PageCleaner.CleanToNormal | GraphRAG/data_cleaning_for_GraphRAG.py:76-87 | with no headers or footers, if the de-hyphenated text differs from a normal text only in which whitespace characters it has, cleaning yields that normal text |
| PageCleaner.CleanKeepsText | GraphRAG/data_cleaning_for_GraphRAG.py:76-87 | cleaning removes only whitespace and hyphens: the cleaned text's other characters, punctuation and non-ASCII letters included, are exactly those of the kept lines, in order |
| PageCleaner.CleanJoinsBrokenWord | GraphRAG/data_cleaning_for_GraphRAG.py:84-87 | the page `"cate-\ngory"` cleans to `"category"` |
| PageCleaner.CleanFlattensListBreak | GraphRAG/data_cleaning_for_GraphRAG.py:85-87 | the line break before a numbered list item does not survive: `"end.\n1. First item"` cleans to `"end. 1. First item"` |
| Tables.PlaceholderInjective | GraphRAG/data_cleaning_for_GraphRAG.py:99 | different column positions get different `column-<i>` placeholders |
| Tables.CleanHeader | GraphRAG/data_cleaning_for_GraphRAG.py:98-101 | a missing or empty header becomes `column-<i>`; any other header loses every newline and carriage return and all whitespace at either end, and keeps every non-whitespace character, in order |
| Tables.CleanHeaderJoinsLines | GraphRAG/data_cleaning_for_GraphRAG.py:99 | a run of newlines and carriage returns between two pieces of header text becomes exactly one space |
| Tables.CleanHeaderOfBlank | GraphRAG/data_cleaning_for_GraphRAG.py:99 | a non-empty header of whitespace only becomes `""`, not a `column-<i>` name |
| Tables.CleanHeaderKeepsPlainText | GraphRAG/data_cleaning_for_GraphRAG.py:99 | a non-empty header without line breaks or edge whitespace is kept as it is |
| Tables.BlankHeadersDistinct | GraphRAG/data_cleaning_for_GraphRAG.py:98-101 | two blank headers in different columns never collide |
| Tables.CleanCell | GraphRAG/data_cleaning_for_GraphRAG.py:109 | a missing or empty cell becomes `""`; the result holds no letter `n`, no carriage return and no whitespace at either end, and keeps every character that is neither whitespace nor `n`, in order |
| Tables.CleanCellJoinsAtRun | GraphRAG/data_cleaning_for_GraphRAG.py:109 | a run of `n` and carriage-return characters between two pieces of cell text becomes exactly one space |
| Tables.CleanCellOfBlank | GraphRAG/data_cleaning_for_GraphRAG.py:109 | a cell of whitespace and the letter `n` only becomes `""` |
| Tables.CleanCellKeepsPlainText | GraphRAG/data_cleaning_for_GraphRAG.py:109 | a cell without `n`, carriage return or edge whitespace is kept as it is |
| Tables.CleanCellSplitsAtLetterN | GraphRAG/data_cleaning_for_GraphRAG.py:109 | the class `[n\r]` strikes the letter `n`: `"nine"` becomes `"i e"` |
| Tables.CleanCellKeepsNewline | GraphRAG/data_cleaning_for_GraphRAG.py:109 | a newline inside a cell survives: `"a\nb"` is kept |
| Tables.AssignKeys | GraphRAG/data_cleaning_for_GraphRAG.py:106-112 | assigning values under a list of keys gives a dictionary whose keys are exactly the listed ones |
| Tables.AssignLastWins | GraphRAG/data_cleaning_for_GraphRAG.py:106-112 | under a repeated key, the value of its last occurrence wins |
| Tables.RowRecordKeys | GraphRAG/data_cleaning_for_GraphRAG.py:104-112 | a row's record has exactly the cleaned headers as keys, short rows included |
| Tables.RowRecordLastWins | GraphRAG/data_cleaning_for_GraphRAG.py:106-112 | under a repeated header, a record holds the cell of the header's last column (or `""` past the row's end) |
| Tables.RowRecordDistinctHeaders | GraphRAG/data_cleaning_for_GraphRAG.py:106-112 | with distinct headers, every column's cleaned cell is in the record under its header |
| Tables.FormatTable | GraphRAG/data_cleaning_for_GraphRAG.py:92-117 | an empty table gives `None`; otherwise the result, when present, is a non-empty list of records that each hold some non-empty value |
| Tables.FormatTableNoneWhenBlank | GraphRAG/data_cleaning_for_GraphRAG.py:114-117 | a non-empty table gives `None` exactly when every data row's record is all empty strings |
| Tables.FormatTableKeepsRowsWithValues | GraphRAG/data_cleaning_for_GraphRAG.py:103-117 | the records returned are those of the data rows holding a value, in row order and with their multiplicity |
| Tables.FormatTableKeys | GraphRAG/data_cleaning_for_GraphRAG.py:97-117 | every record returned is keyed by exactly the cleaned headers |
| Tables.FormatTableExample | GraphRAG/data_cleaning_for_GraphRAG.py:92-117 | the table `[["Name", ""], ["Alice", "30"]]` formats to `[{"Name": "Alice", "column-1": "30"}]` |
| Extraction.TableNamePageEnd | GraphRAG/data_cleaning_for_GraphRAG.py:159 | in a table name, the page number is the digit run after `Table on Page ` and the index is all that follows `, Index ` |
| Extraction.TableNameInjective | GraphRAG/data_cleaning_for_GraphRAG.py:159 | different (page, index) pairs give different table names |
| Extraction.FormattedIndices | GraphRAG/data_cleaning_for_GraphRAG.py:154-157 | the positions collected are in strictly increasing order, each holds a formatting result with records, and every such position is collected |
| Extraction.PageTables | GraphRAG/data_cleaning_for_GraphRAG.py:152-161 | every named table of a page holds at least one record |
| Extraction.PageTablesComplete | GraphRAG/data_cleaning_for_GraphRAG.py:152-161 | every table of a page that formats to records appears, named after its page number and position |
| Extraction.PageTablesSound | GraphRAG/data_cleaning_for_GraphRAG.py:152-161 | every named table of a page is the formatting of one of its tables, under that table's name |
| Extraction.PageTablesDistinctNames | GraphRAG/data_cleaning_for_GraphRAG.py:159 | no two named tables of a page share a name |
| Extraction.ChapterTextKeeps | GraphRAG/data_cleaning_for_GraphRAG.py:146-149 | the accumulated chapter text's characters other than whitespace and hyphens are those of every page's kept lines, page after page |
| Extraction.ChapterTextSpaces | GraphRAG/data_cleaning_for_GraphRAG.py:146-149 | every whitespace character of the accumulated chapter text is a plain space |
| Extraction.StripOfBlankSpaced | GraphRAG/data_cleaning_for_GraphRAG.py:167 | stripping text whose whitespace is all spaces leaves text without a newline |
| Extraction.ChapterTextJoin | GraphRAG/data_cleaning_for_GraphRAG.py:146-149 | the accumulated chapter text is the cleaned text of each non-empty page followed by one space, page after page |
| Extraction.ChapterContentJoin | GraphRAG/data_cleaning_for_GraphRAG.py:146-167 | the chapter content is the cleaned pages joined by single spaces, then stripped |
| Extraction.ChapterContentSeparated | GraphRAG/data_cleaning_for_GraphRAG.py:146-167 | when no non-empty page cleans to the empty string, the content is exactly the cleaned pages with one space between consecutive pages |
| Extraction.ChapterContentSpec | GraphRAG/data_cleaning_for_GraphRAG.py:146-167 | the chapter content has no newline, only spaces as whitespace and none at either end, the characters other than whitespace and hyphens of its pages' kept lines, in page order, and equals the cleaned pages joined by single spaces, stripped |
| Extraction.ChapterTables | GraphRAG/data_cleaning_for_GraphRAG.py:151-161 | every table a chapter collects holds at least one record |
| Extraction.ChapterTablesSpec | GraphRAG/data_cleaning_for_GraphRAG.py:142-161 | a chapter collects every table of its pages that formats to records, named after the page's 1-based number and the table's position, and no other table |
| Extraction.ChapterTablesAppend | GraphRAG/data_cleaning_for_GraphRAG.py:142-161 | tables are collected page after page: the tables of earlier pages come first |
| Extraction.PageIndicesInDocument | GraphRAG/data_cleaning_for_GraphRAG.py:139-143 | for a start page of 1 or later, every page index the loop visits lies inside the document |
| Extraction.ProcessChapter | GraphRAG/data_cleaning_for_GraphRAG.py:133-169 | a chapter record carries the chapter's number and title, and every table in it holds records |
| Extraction.ProcessChapterTables | GraphRAG/data_cleaning_for_GraphRAG.py:139-168 | a chapter record's tables are exactly the formatted, named tables of the pages the chapter spans |
| Extraction.ProcessChapters | GraphRAG/data_cleaning_for_GraphRAG.py:133-169 | one record per chapter, in order, each with its chapter's number and title and only tables that hold records |
| Extraction.Monograph | GraphRAG/data_cleaning_for_GraphRAG.py:120-169 | the output lists one record per chapter of the hand-written map |
| Extraction.MonographChapterFacts | GraphRAG/data_cleaning_for_GraphRAG.py:164-168 | record `i` is numbered `i + 1`, carries the `i`-th title, and all its tables hold records |
| Extraction.MonographChapters | GraphRAG/data_cleaning_for_GraphRAG.py:164-168 | the output lists chapters 1 to 9 in order with their titles |
| Extraction.MonographContent | GraphRAG/data_cleaning_for_GraphRAG.py:139-167 | record `i`'s content has no newline, no whitespace but the space character and none at either end, and holds the characters other than whitespace and hyphens of the kept lines of exactly the pages chapter `i` spans, in page order; it is those pages' cleaned text joined by single spaces, stripped |
| Extraction.MonographTables | GraphRAG/data_cleaning_for_GraphRAG.py:139-168 | record `i`'s tables are exactly the formatted, named tables of the pages chapter `i` spans |

## Left out

- Reading the PDF (`fitz.open`, `page.get_text()`, `page.find_tables()`, `table_obj.extract()`) is replaced by `Page` values given as input. What the reader extracts is not modelled.
- The JSON output: the wrapping `{"source_file", "chapters"}` object, `json.dump`, the output path and file writing are not modelled. `Extraction.Monograph` yields the chapters list.
- The `print` calls and the commented-out timestamp are left out because they do not affect the output.
- `HeaderFooter.MinCount`: `int(num_sampled * threshold)` is computed on exact reals, with truncation toward zero. Floating-point rounding of the product is not modelled.
- `Text.IsWordChar`, `Text.IsDigit`: `\w` and `\d` are taken as their ASCII parts. Python's Unicode-aware classes also accept non-ASCII letters and digits, which this model treats as non-word characters. This affects where `Dehyphenate` finds a match and where the footer pattern's `\d+` matches: a footer such as `Cancer Monograph ١٢` with Arabic-Indic digits matches in Python but not in the model, so the model's footer set can be smaller. The keep lemmas (`PageCleaner.CleanKeepsText` and those built on it) are stated for every character that is neither whitespace nor a hyphen, so they cover non-ASCII letters too.
- `Extraction.ProcessChapter`: requires a start page of 1 or more. A start page of 0 would make Python index the last page (`doc[-1]`). Every start page in the hand-written map is 28 or later.
- `Tables.FormatTable`: a table is a sequence of rows, so the `None` table that `not table_data` also rejects is not represented. Cells are strings or `None`, as the reader yields. Non-string cell values are not modelled.
- Key order of the records and of the output object is not modelled, because Dafny maps are unordered.
- `findall` returns a list. Its results only feed `set.add`, so the model states them as a set and does not keep their order or repeats.

=== FILE: chapters.dfy ===
/** The chapter map of the monograph (`detect_chapters`) and the page ranges
    the main loop walks for each chapter. */
module Chapters {

  /** One entry of the hand-written chapter list: 1-based start page. */
  datatype ChapterStart = ChapterStart(number: nat, title: string, startPage: int)

  /** A chapter with its computed 1-based inclusive end page. */
  datatype Chapter = Chapter(number: nat, title: string, startPage: int, endPage: int)

  /** Titles of the nine chapters of the monograph, in order. */
  const ChapterTitles: seq<string> := [
    "Population and Cancer Incidence",
    "Leading sites of Cancer",
    "Breast Cancer",
    "Cervical Cancer Research",
    "Cancer Research in North-East",
    "Tobacco Related Cancers",
    "Prostrate Cancer",
    "Diet and Cancer",
    "Extramural Research Activities"
  ]

  /** The 1-based page on which each of the nine chapters starts. */
  const ChapterFirstPages: seq<int> := [28, 36, 54, 79, 112, 137, 186, 195, 201]

  /** The hand-written chapter list of the cleaning script: chapter `i + 1`
      has the `i`-th title and starts on the `i`-th first page. */
  const ChapterStarts: seq<ChapterStart> := NumberedStarts(ChapterTitles, ChapterFirstPages)

  /** Pairs titles with first pages and numbers the chapters from 1. */
  function NumberedStarts(titles: seq<string>, firstPages: seq<int>): (r: seq<ChapterStart>)
    requires |titles| == |firstPages|
    ensures |r| == |titles|
    ensures forall i :: 0 <= i < |r| ==> r[i] == ChapterStart(i + 1, titles[i], firstPages[i])
  {
    seq(|titles|, i requires 0 <= i < |titles| => ChapterStart(i + 1, titles[i], firstPages[i]))
  }

  function Min(a: int, b: int): int {
    if a <= b then a else b
  }

  /** The end page of chapter `i`: the page before the next chapter starts,
      or the last page of the document for the last chapter. */
  function EndPage(starts: seq<ChapterStart>, i: nat, pageCount: int): int
    requires i < |starts|
  {
    if i < |starts| - 1 then starts[i + 1].startPage - 1 else pageCount
  }

  /** Fills in the end page of every chapter. */
  function WithEndPages(starts: seq<ChapterStart>, pageCount: int): (r: seq<Chapter>)
    requires |starts| > 0
    ensures |r| == |starts|
    ensures forall i :: 0 <= i < |r| ==>
      && r[i].number == starts[i].number
      && r[i].title == starts[i].title
      && r[i].startPage == starts[i].startPage
    ensures forall i :: 0 <= i < |r| - 1 ==> r[i].endPage == starts[i + 1].startPage - 1
    ensures r[|r| - 1].endPage == pageCount
  {
    seq(|starts|, i requires 0 <= i < |starts| =>
      Chapter(starts[i].number, starts[i].title, starts[i].startPage, EndPage(starts, i, pageCount)))
  }

  /** Chapter end pages depend only on the chapters that follow. */
  lemma WithEndPagesCons(starts: seq<ChapterStart>, pageCount: int)
    requires |starts| > 1
    ensures WithEndPages(starts, pageCount)
         == [Chapter(starts[0].number, starts[0].title, starts[0].startPage, starts[1].startPage - 1)]
            + WithEndPages(starts[1..], pageCount)
  {
    var r := WithEndPages(starts, pageCount);
    var tail := WithEndPages(starts[1..], pageCount);
    assert forall i :: 1 <= i < |r| ==> r[i] == tail[i - 1];
  }

  /** `detect_chapters(doc)` for a document of `pageCount` pages. */
  function DetectChapters(pageCount: nat): (r: seq<Chapter>)
    ensures |r| == |ChapterStarts|
    ensures |r| == 9
    ensures forall i :: 0 <= i < |r| ==> r[i].number == i + 1 && r[i].startPage >= 28
    ensures forall i :: 0 <= i < |r| ==>
      r[i].title == ChapterTitles[i] && r[i].startPage == ChapterFirstPages[i]
    ensures forall i :: 0 <= i < |r| - 1 ==> r[i].endPage == ChapterFirstPages[i + 1] - 1
    ensures r[8].endPage == pageCount
  {
    ChapterStartsFacts();
    WithEndPages(ChapterStarts, pageCount)
  }

  /** The hand-written list is numbered 1..9 with ascending start pages from 28 on. */
  lemma ChapterStartsFacts()
    ensures |ChapterStarts| == 9
    ensures forall i :: 0 <= i < |ChapterStarts| ==> ChapterStarts[i].number == i + 1 && ChapterStarts[i].startPage >= 28
    ensures Ascending(ChapterStarts)
    ensures ChapterStarts[0].startPage == 28
  {
    var p := ChapterFirstPages;
    assert forall i, j :: 0 <= i < j < 9 ==> p[i] <= p[j];
    assert forall i :: 0 <= i < 9 ==> p[i] >= 28;
  }

  /** `range(lo, hi)` */
  function Range(lo: int, hi: int): (r: seq<int>)
    ensures |r| == if lo < hi then hi - lo else 0
    ensures forall k :: 0 <= k < |r| ==> r[k] == lo + k
    decreases hi - lo
  {
    if lo < hi then [lo] + Range(lo + 1, hi) else []
  }

  /** The 0-based page indices the main loop visits for a chapter: from
      `start_page - 1` up to `end_page - 1`, clamped to the page count. */
  function PageIndices(c: Chapter, pageCount: int): seq<int> {
    var startIndex := c.startPage - 1;
    var endIndex := c.endPage - 1;
    Range(startIndex, Min(endIndex + 1, pageCount))
  }

  /** Every page index the main loop visits, chapter after chapter. */
  function VisitedPages(chapters: seq<Chapter>, pageCount: int): seq<int> {
    if |chapters| == 0 then [] else PageIndices(chapters[0], pageCount) + VisitedPages(chapters[1..], pageCount)
  }

  ghost predicate Ascending(starts: seq<ChapterStart>) {
    forall i, j :: 0 <= i < j < |starts| ==> starts[i].startPage <= starts[j].startPage
  }

  lemma {:induction false} RangeAppend(a: int, b: int, c: int)
    requires a <= b <= c
    ensures Range(a, b) + Range(b, c) == Range(a, c)
    decreases b - a
  {
    if a < b {
      RangeAppend(a + 1, b, c);
      assert Range(a, b) + Range(b, c) == [a] + (Range(a + 1, b) + Range(b, c));
    }
  }

  /** A chapter's clamped range followed by the rest of the document is the
      document from that chapter's first page on. */
  lemma ClampedRangeAppend(a: int, b: int, n: int)
    requires a <= b
    ensures Range(a, Min(b, n)) + Range(b, n) == Range(a, n)
  {
    if b < n {
      RangeAppend(a, b, n);
    } else if a < n {
      assert Range(b, n) == [];
    } else {
      assert Range(b, n) == [];
      assert Range(a, Min(b, n)) == [];
    }
  }

  /** With ascending start pages, the chapters' page ranges are adjacent and
      together visit the document from the first chapter's first page to the
      last page, each page once and in order. */
  lemma {:induction false} ChapterRangesPartition(starts: seq<ChapterStart>, pageCount: int)
    requires |starts| > 0
    requires Ascending(starts)
    ensures VisitedPages(WithEndPages(starts, pageCount), pageCount) == Range(starts[0].startPage - 1, pageCount)
    decreases |starts|
  {
    if |starts| == 1 {
      PartitionLast(starts, pageCount);
    } else {
      AscendingTail(starts);
      ChapterRangesPartition(starts[1..], pageCount);
      assert starts[1..][0] == starts[1];
      PartitionStep(starts, pageCount);
    }
  }

  /** One chapter in front of a partitioned rest extends the partition. */
  lemma PartitionStep(starts: seq<ChapterStart>, pageCount: int)
    requires |starts| > 1 && starts[0].startPage <= starts[1].startPage
    requires VisitedPages(WithEndPages(starts[1..], pageCount), pageCount) == Range(starts[1].startPage - 1, pageCount)
    ensures VisitedPages(WithEndPages(starts, pageCount), pageCount) == Range(starts[0].startPage - 1, pageCount)
  {
    var a := starts[0].startPage - 1;
    var b := starts[1].startPage - 1;
    var c := Chapter(starts[0].number, starts[0].title, starts[0].startPage, b);
    WithEndPagesCons(starts, pageCount);
    VisitedCons(c, WithEndPages(starts[1..], pageCount), pageCount);
    assert PageIndices(c, pageCount) == Range(a, Min(b, pageCount));
    ClampedRangeAppend(a, b, pageCount);
  }

  lemma AscendingTail(starts: seq<ChapterStart>)
    requires |starts| > 1 && Ascending(starts)
    ensures Ascending(starts[1..]) && starts[0].startPage <= starts[1].startPage
  {
    forall i, j | 0 <= i < j < |starts| - 1
      ensures starts[1..][i].startPage <= starts[1..][j].startPage
    {
      assert starts[1..][i] == starts[i + 1] && starts[1..][j] == starts[j + 1];
    }
  }

  lemma VisitedCons(c: Chapter, rest: seq<Chapter>, pageCount: int)
    ensures VisitedPages([c] + rest, pageCount) == PageIndices(c, pageCount) + VisitedPages(rest, pageCount)
  {
    assert ([c] + rest)[1..] == rest;
  }

  lemma PartitionLast(starts: seq<ChapterStart>, pageCount: int)
    requires |starts| == 1
    ensures VisitedPages(WithEndPages(starts, pageCount), pageCount) == Range(starts[0].startPage - 1, pageCount)
  {
    var c := WithEndPages(starts, pageCount)[0];
    assert WithEndPages(starts, pageCount) == [c];
    VisitedCons(c, [], pageCount);
    assert [c] + [] == [c];
  }

  /** Each index of a range occurs in it exactly once. */
  lemma {:induction false} RangeCounts(lo: int, hi: int)
    ensures forall p :: multiset(Range(lo, hi))[p] == if lo <= p < hi then 1 else 0
    decreases hi - lo
  {
    if lo < hi {
      RangeCounts(lo + 1, hi);
      assert multiset(Range(lo, hi)) == multiset{lo} + multiset(Range(lo + 1, hi));
    }
  }

  /** With ascending start pages, the main loop reads every page from the
      first chapter's first page to the end of the document exactly once. */
  lemma StartsCoverDocument(starts: seq<ChapterStart>, pageCount: int)
    requires |starts| > 0
    requires Ascending(starts)
    ensures VisitedPages(WithEndPages(starts, pageCount), pageCount) == Range(starts[0].startPage - 1, pageCount)
    ensures forall p :: multiset(VisitedPages(WithEndPages(starts, pageCount), pageCount))[p]
                     == if starts[0].startPage - 1 <= p < pageCount then 1 else 0
  {
    ChapterRangesPartition(starts, pageCount);
    RangeCounts(starts[0].startPage - 1, pageCount);
  }

  /** For the monograph's chapter map, the main loop reads pages 27 to n-1
      (0-based), each exactly once, chapter after chapter. */
  lemma DetectedChaptersCoverDocument(pageCount: nat)
    ensures VisitedPages(DetectChapters(pageCount), pageCount) == Range(27, pageCount)
    ensures forall p :: multiset(VisitedPages(DetectChapters(pageCount), pageCount))[p] == if 27 <= p < pageCount then 1 else 0
  {
    ChapterStartsFacts();
    StartsCoverDocument(ChapterStarts, pageCount);
  }

  /** Two chapters starting on pages 1 and 4 of a five-page document span
      pages 1-3 and 4-5 and visit the 0-based pages 0..4 once each. */
  lemma TwoChapterDocument()
    ensures var r := WithEndPages([ChapterStart(1, "A", 1), ChapterStart(2, "B", 4)], 5);
      && r == [Chapter(1, "A", 1, 3), Chapter(2, "B", 4, 5)]
      && VisitedPages(r, 5) == [0, 1, 2, 3, 4]
  {
    var starts := [ChapterStart(1, "A", 1), ChapterStart(2, "B", 4)];
    ChapterRangesPartition(starts, 5);
    assert Range(0, 5) == [0, 1, 2, 3, 4];
  }

}

=== FILE: extraction.dfy ===
/** The main loop of the cleaning script: every chapter's pages are cleaned
    and concatenated, and every table on them is formatted and named. */
module Extraction {
  import opened Wrappers
  import opened Seqs
  import opened Text
  import opened Chapters
  import opened HeaderFooter
  import opened PageCleaner
  import opened Tables

  /** What the PDF reader yields for one page: its text and the cell grids
      of the tables found on it. */
  datatype Page = Page(text: string, tables: seq<Table>)

  /** A formatted table with its synthesized name. */
  datatype TableRecord = TableRecord(name: string, data: seq<Record>)

  /** One entry of the output's chapter list. */
  datatype CleanedChapter = CleanedChapter(number: nat, title: string, content: string, tables: seq<TableRecord>)

  // ------------------------------------------------------------ table names

  const PagePrefix := "Table on Page "
  const IndexInfix := ", Index "

  /** `f"Table on Page {page.number + 1}, Index {i}"` for a 1-based page number. */
  function TableName(pageNumber: nat, index: nat): string {
    PagePrefix + Decimal(pageNumber) + IndexInfix + Decimal(index)
  }

  /** The page number ends where the first non-digit after the prefix is. */
  lemma TableNamePageEnd(pageNumber: nat, index: nat)
    ensures var s := TableName(pageNumber, index);
      && RunEnd(s, |PagePrefix|, IsDigit) == |PagePrefix| + |Decimal(pageNumber)|
      && s[|PagePrefix|..|PagePrefix| + |Decimal(pageNumber)|] == Decimal(pageNumber)
      && s[|PagePrefix| + |Decimal(pageNumber)| + |IndexInfix|..] == Decimal(index)
  {
    var s := TableName(pageNumber, index);
    var d := Decimal(pageNumber);
    var e := |PagePrefix| + |d|;
    assert s[e] == ',';
    RunEndIs(s, |PagePrefix|, IsDigit, e);
  }

  /** Different (page, index) pairs give different table names. */
  lemma TableNameInjective(p1: nat, i1: nat, p2: nat, i2: nat)
    requires TableName(p1, i1) == TableName(p2, i2)
    ensures p1 == p2 && i1 == i2
  {
    TableNamePageEnd(p1, i1);
    TableNamePageEnd(p2, i2);
    DecimalInjective(p1, p2);
    DecimalInjective(i1, i2);
  }

  // ----------------------------------------------------------- page tables

  /** The formatting of each table of a page, in order. */
  function FormatAll(tables: seq<Table>): (r: seq<Option<seq<Record>>>)
    ensures |r| == |tables|
    ensures forall k :: 0 <= k < |r| ==> r[k] == FormatTable(tables[k])
  {
    seq(|tables|, k requires 0 <= k < |tables| => FormatTable(tables[k]))
  }

  /** The positions, from `i` on, of the formatting results that hold records. */
  function FormattedIndices(results: seq<Option<seq<Record>>>, i: nat): (r: seq<nat>)
    requires i <= |results|
    ensures forall j :: 0 <= j < |r| ==> i <= r[j] < |results| && results[r[j]].Some?
    ensures forall j, k :: 0 <= j < k < |r| ==> r[j] < r[k]
    ensures forall x :: i <= x < |results| && results[x].Some? ==> x in r
    decreases |results| - i
  {
    if i == |results| then []
    else if results[i].Some? then [i] + FormattedIndices(results, i + 1)
    else FormattedIndices(results, i + 1)
  }

  /** The named tables of the page with 1-based number `pageNumber`, in the
      order they were found; a table that formats to nothing is skipped. */
  function PageTables(pageNumber: nat, tables: seq<Table>): (r: seq<TableRecord>)
    ensures forall j :: 0 <= j < |r| ==> |r[j].data| > 0
  {
    var results := FormatAll(tables);
    var idx := FormattedIndices(results, 0);
    seq(|idx|, j requires 0 <= j < |idx| => TableRecord(TableName(pageNumber, idx[j]), results[idx[j]].value))
  }

  /** Every table of a page that formats to records appears among the page's
      named tables, under the name built from its page number and position. */
  lemma PageTablesComplete(pageNumber: nat, tables: seq<Table>)
    ensures forall i :: FormattedAt(tables, i) ==> NamedTable(pageNumber, tables, i) in PageTables(pageNumber, tables)
  {
    var idx := FormattedIndices(FormatAll(tables), 0);
    var r := PageTables(pageNumber, tables);
    forall i | FormattedAt(tables, i) ensures NamedTable(pageNumber, tables, i) in r {
      var j :| 0 <= j < |idx| && idx[j] == i;
      assert r[j] == NamedTable(pageNumber, tables, i);
    }
  }

  /** Every named table of a page is the formatting of one of its tables,
      named after that table's position. */
  lemma PageTablesSound(pageNumber: nat, tables: seq<Table>)
    ensures forall j :: 0 <= j < |PageTables(pageNumber, tables)| ==>
      NamedFromPage(pageNumber, tables, PageTables(pageNumber, tables)[j])
  {
    var idx := FormattedIndices(FormatAll(tables), 0);
    var r := PageTables(pageNumber, tables);
    forall j | 0 <= j < |r| ensures NamedFromPage(pageNumber, tables, r[j]) {
      var i := idx[j];
      assert FormattedAt(tables, i);
      assert r[j] == NamedTable(pageNumber, tables, i);
    }
  }

  /** `t` is the named table that some table of the page becomes. */
  ghost predicate NamedFromPage(pageNumber: nat, tables: seq<Table>, t: TableRecord) {
    exists i :: FormattedAt(tables, i) && t == NamedTable(pageNumber, tables, i)
  }

  /** The named table that table `i` of the page becomes. */
  function NamedTable(pageNumber: nat, tables: seq<Table>, i: int): TableRecord
    requires FormattedAt(tables, i)
  {
    TableRecord(TableName(pageNumber, i), FormatTable(tables[i]).value)
  }

  /** Table `i` of the page exists and formats to records. */
  predicate FormattedAt(tables: seq<Table>, i: int) {
    0 <= i < |tables| && FormatTable(tables[i]).Some?
  }

  /** No two named tables of a page share a name, so no table of the page
      overwrites another. */
  lemma PageTablesDistinctNames(pageNumber: nat, tables: seq<Table>)
    ensures forall j, k :: 0 <= j < k < |PageTables(pageNumber, tables)| ==>
      PageTables(pageNumber, tables)[j].name != PageTables(pageNumber, tables)[k].name
  {
    var idx := FormattedIndices(FormatAll(tables), 0);
    var r := PageTables(pageNumber, tables);
    forall j, k | 0 <= j < k < |r| ensures r[j].name != r[k].name {
      if r[j].name == r[k].name {
        TableNameInjective(pageNumber, idx[j], pageNumber, idx[k]);
      }
    }
  }

  // ------------------------------------------------------------ chapter text

  /** What one page adds to the chapter text: nothing for an empty page,
      otherwise its cleaned text and a space. */
  function PageContribution(raw: string, headers: set<string>, footers: set<string>): string {
    if raw == "" then "" else CleanPageText(raw, headers, footers) + " "
  }

  /** The chapter text before the final strip, page after page. */
  function ChapterText(texts: seq<string>, headers: set<string>, footers: set<string>): string {
    if |texts| == 0 then ""
    else PageContribution(texts[0], headers, footers) + ChapterText(texts[1..], headers, footers)
  }

  /** The cleaned text of every non-empty page, in page order. */
  function CleanedPages(texts: seq<string>, headers: set<string>, footers: set<string>): (r: seq<string>)
    ensures |r| <= |texts|
    ensures forall k :: 0 <= k < |r| ==> IsNormal(r[k])
  {
    if |texts| == 0 then []
    else if texts[0] == "" then CleanedPages(texts[1..], headers, footers)
    else [CleanPageText(texts[0], headers, footers)] + CleanedPages(texts[1..], headers, footers)
  }

  /** The accumulated chapter text is the cleaned pages separated by one
      space, with one more space after the last. */
  lemma {:induction false} ChapterTextJoin(texts: seq<string>, headers: set<string>, footers: set<string>)
    ensures var cleaned := CleanedPages(texts, headers, footers);
      ChapterText(texts, headers, footers) == if |cleaned| == 0 then "" else Join(cleaned, ' ') + " "
    decreases |texts|
  {
    if |texts| > 0 {
      ChapterTextJoin(texts[1..], headers, footers);
      if texts[0] != "" {
        var c := CleanPageText(texts[0], headers, footers);
        var rest := CleanedPages(texts[1..], headers, footers);
        if |rest| > 0 {
          JoinCons(c, rest, ' ');
          AppendAssoc(c + " ", Join(rest, ' '), " ");
        } else {
          assert Join([c], ' ') == c;
        }
      }
    }
  }

  /** The chapter content is the cleaned text of its non-empty pages joined
      by single spaces, then stripped. */
  lemma ChapterContentJoin(texts: seq<string>, headers: set<string>, footers: set<string>)
    ensures ChapterContent(texts, headers, footers) == Strip(Join(CleanedPages(texts, headers, footers), ' '))
  {
    ChapterTextJoin(texts, headers, footers);
    var cleaned := CleanedPages(texts, headers, footers);
    if |cleaned| > 0 {
      StripTrailingSpace(Join(cleaned, ' '));
    }
  }

  /** Every non-empty page whose cleaned text is non-empty yields a non-empty part. */
  lemma {:induction false} CleanedPagesNonEmpty(texts: seq<string>, headers: set<string>, footers: set<string>)
    requires forall k :: 0 <= k < |texts| && texts[k] != "" ==> CleanPageText(texts[k], headers, footers) != ""
    ensures forall k :: 0 <= k < |CleanedPages(texts, headers, footers)| ==> |CleanedPages(texts, headers, footers)[k]| > 0
    decreases |texts|
  {
    if |texts| > 0 {
      CleanedPagesNonEmpty(texts[1..], headers, footers);
    }
  }

  /** When no page cleans to the empty string, the chapter content is exactly
      the cleaned pages, one space between consecutive pages. */
  lemma ChapterContentSeparated(texts: seq<string>, headers: set<string>, footers: set<string>)
    requires forall k :: 0 <= k < |texts| && texts[k] != "" ==> CleanPageText(texts[k], headers, footers) != ""
    ensures ChapterContent(texts, headers, footers) == Join(CleanedPages(texts, headers, footers), ' ')
  {
    ChapterContentJoin(texts, headers, footers);
    var cleaned := CleanedPages(texts, headers, footers);
    if |cleaned| > 0 {
      CleanedPagesNonEmpty(texts, headers, footers);
      JoinEdges(cleaned, ' ');
      StripOfTrimmed(Join(cleaned, ' '));
    }
  }

  /** The characters other than whitespace and hyphens of the lines a page
      keeps once running headers and footers are dropped. */
  function KeptText(raw: string, headers: set<string>, footers: set<string>): string {
    Filter(Join(DropRunningLines(Lines(raw), headers, footers), '\n'), IsNotSpaceOrHyphen)
  }

  function AllKeptText(texts: seq<string>, headers: set<string>, footers: set<string>): string {
    if |texts| == 0 then ""
    else KeptText(texts[0], headers, footers) + AllKeptText(texts[1..], headers, footers)
  }

  lemma {:induction false} ChapterTextKeeps(texts: seq<string>, headers: set<string>, footers: set<string>)
    ensures Filter(ChapterText(texts, headers, footers), IsNotSpaceOrHyphen) == AllKeptText(texts, headers, footers)
    decreases |texts|
  {
    if |texts| > 0 {
      var raw := texts[0];
      ChapterTextKeeps(texts[1..], headers, footers);
      FilterConcat(PageContribution(raw, headers, footers), ChapterText(texts[1..], headers, footers), IsNotSpaceOrHyphen);
      if raw == "" {
        assert Lines(raw) == [""];
        assert Join(DropRunningLines([""], headers, footers), '\n') == "";
      } else {
        CleanKeepsText(raw, headers, footers);
        FilterConcat(CleanPageText(raw, headers, footers), " ", IsNotSpaceOrHyphen);
      }
    }
  }

  lemma {:induction false} ChapterTextSpaces(texts: seq<string>, headers: set<string>, footers: set<string>)
    ensures SpacesAreBlanks(ChapterText(texts, headers, footers))
    decreases |texts|
  {
    if |texts| > 0 {
      ChapterTextSpaces(texts[1..], headers, footers);
      var c := PageContribution(texts[0], headers, footers);
      assert SpacesAreBlanks(c);
    }
  }

  /** `chapter_text.strip()`: the chapter content. */
  function ChapterContent(texts: seq<string>, headers: set<string>, footers: set<string>): string {
    Strip(ChapterText(texts, headers, footers))
  }

  /** Stripping text whose whitespace is all spaces leaves text without a newline. */
  lemma StripOfBlankSpaced(t: string)
    requires SpacesAreBlanks(t)
    ensures SpacesAreBlanks(Strip(t)) && '\n' !in Strip(t)
  {
    var content := Strip(t);
    var a := RunEnd(t, 0, IsSpace);
    assert forall k :: 0 <= k < |content| ==> content[k] == t[a + k];
  }

  /** The chapter content holds no newline, every whitespace character in it is
      a space, it has no whitespace at either end, its characters other than
      whitespace and hyphens are those of the kept lines of its pages, in page
      order, and it is the cleaned pages joined by single spaces, stripped. */
  lemma ChapterContentSpec(texts: seq<string>, headers: set<string>, footers: set<string>)
    ensures var content := ChapterContent(texts, headers, footers);
      && SpacesAreBlanks(content)
      && '\n' !in content
      && (|content| == 0 || (!IsSpace(content[0]) && !IsSpace(content[|content| - 1])))
      && Filter(content, IsNotSpaceOrHyphen) == AllKeptText(texts, headers, footers)
      && content == Strip(Join(CleanedPages(texts, headers, footers), ' '))
  {
    ChapterContentJoin(texts, headers, footers);
    ChapterTextSpaces(texts, headers, footers);
    ChapterTextKeeps(texts, headers, footers);
    StrippedSpec(ChapterText(texts, headers, footers));
  }

  lemma StrippedSpec(t: string)
    requires SpacesAreBlanks(t)
    ensures var content := Strip(t);
      && SpacesAreBlanks(content)
      && '\n' !in content
      && (|content| == 0 || (!IsSpace(content[0]) && !IsSpace(content[|content| - 1])))
      && Filter(content, IsNotSpaceOrHyphen) == Filter(t, IsNotSpaceOrHyphen)
  {
    StripOfBlankSpaced(t);
    StripKeeps(t, IsNotSpaceOrHyphen);
  }

  // -------------------------------------------------------------- chapters

  /** The named tables of each page at `indices`, one list per page. */
  function PagesTables(doc: seq<Page>, indices: seq<int>): (r: seq<seq<TableRecord>>)
    requires forall k :: 0 <= k < |indices| ==> 0 <= indices[k] < |doc|
    ensures |r| == |indices|
    ensures forall k :: 0 <= k < |r| ==> r[k] == PageTables(indices[k] + 1, doc[indices[k]].tables)
  {
    seq(|indices|, k requires 0 <= k < |indices| => PageTables(indices[k] + 1, doc[indices[k]].tables))
  }

  /** The named tables of the pages at `indices`, page after page. */
  function ChapterTables(doc: seq<Page>, indices: seq<int>): (r: seq<TableRecord>)
    requires forall k :: 0 <= k < |indices| ==> 0 <= indices[k] < |doc|
    ensures forall t :: t in r ==> |t.data| > 0
  {
    var perPage := PagesTables(doc, indices);
    FlattenMembers(perPage);
    Flatten(perPage)
  }

  /** `t` is the named table that some table of one of the pages at
      `indices` becomes. */
  ghost predicate NamedFromChapter(doc: seq<Page>, indices: seq<int>, t: TableRecord)
    requires forall k :: 0 <= k < |indices| ==> 0 <= indices[k] < |doc|
  {
    exists k :: 0 <= k < |indices| && NamedFromPage(indices[k] + 1, doc[indices[k]].tables, t)
  }

  /** `tables` holds every table of the pages at `indices` that formats to
      records, under the name built from the page's 1-based number and the
      table's position, and nothing else. */
  ghost predicate CollectsPageTables(doc: seq<Page>, indices: seq<int>, tables: seq<TableRecord>)
    requires forall k :: 0 <= k < |indices| ==> 0 <= indices[k] < |doc|
  {
    && (forall k, i :: 0 <= k < |indices| && FormattedAt(doc[indices[k]].tables, i) ==>
          NamedTable(indices[k] + 1, doc[indices[k]].tables, i) in tables)
    && (forall t :: t in tables ==> NamedFromChapter(doc, indices, t))
  }

  /** A chapter collects every table of its pages that formats to records,
      under the name built from the page's 1-based number and the table's
      position, and nothing else. */
  lemma ChapterTablesSpec(doc: seq<Page>, indices: seq<int>)
    requires forall k :: 0 <= k < |indices| ==> 0 <= indices[k] < |doc|
    ensures forall k, i :: 0 <= k < |indices| && FormattedAt(doc[indices[k]].tables, i) ==>
      NamedTable(indices[k] + 1, doc[indices[k]].tables, i) in ChapterTables(doc, indices)
    ensures forall t :: t in ChapterTables(doc, indices) ==> NamedFromChapter(doc, indices, t)
    ensures CollectsPageTables(doc, indices, ChapterTables(doc, indices))
  {
    var perPage := PagesTables(doc, indices);
    FlattenMembers(perPage);
    forall k, i | 0 <= k < |indices| && FormattedAt(doc[indices[k]].tables, i)
      ensures NamedTable(indices[k] + 1, doc[indices[k]].tables, i) in ChapterTables(doc, indices)
    {
      PageTablesComplete(indices[k] + 1, doc[indices[k]].tables);
      assert InSome(perPage, NamedTable(indices[k] + 1, doc[indices[k]].tables, i));
    }
    forall t | t in ChapterTables(doc, indices) ensures NamedFromChapter(doc, indices, t) {
      assert InSome(perPage, t);
      var k :| 0 <= k < |perPage| && t in perPage[k];
      var j :| 0 <= j < |perPage[k]| && perPage[k][j] == t;
      PageTablesSound(indices[k] + 1, doc[indices[k]].tables);
      assert NamedFromPage(indices[k] + 1, doc[indices[k]].tables, t);
    }
  }

  /** Tables are collected page after page: the tables of earlier pages come
      first. */
  lemma ChapterTablesAppend(doc: seq<Page>, a: seq<int>, b: seq<int>)
    requires forall k :: 0 <= k < |a| ==> 0 <= a[k] < |doc|
    requires forall k :: 0 <= k < |b| ==> 0 <= b[k] < |doc|
    ensures ChapterTables(doc, a + b) == ChapterTables(doc, a) + ChapterTables(doc, b)
  {
    assert PagesTables(doc, a + b) == PagesTables(doc, a) + PagesTables(doc, b);
    FlattenAppend(PagesTables(doc, a), PagesTables(doc, b));
  }

  /** The texts of the pages at `indices`. */
  function PageTexts(doc: seq<Page>, indices: seq<int>): (r: seq<string>)
    requires forall k :: 0 <= k < |indices| ==> 0 <= indices[k] < |doc|
    ensures |r| == |indices|
    ensures forall k :: 0 <= k < |r| ==> r[k] == doc[indices[k]].text
  {
    seq(|indices|, k requires 0 <= k < |indices| => doc[indices[k]].text)
  }

  /** The page indices a chapter walks all lie inside the document. */
  lemma PageIndicesInDocument(c: Chapter, pageCount: int)
    requires c.startPage >= 1
    ensures forall k :: 0 <= k < |PageIndices(c, pageCount)| ==> 0 <= PageIndices(c, pageCount)[k] < pageCount
  {
  }

  /** One chapter of the output: its number and title, the cleaned text of
      its pages and their named tables. */
  function ProcessChapter(doc: seq<Page>, c: Chapter, headers: set<string>, footers: set<string>): (r: CleanedChapter)
    requires c.startPage >= 1
    ensures r.number == c.number && r.title == c.title
    ensures forall j :: 0 <= j < |r.tables| ==> |r.tables[j].data| > 0
  {
    var indices := PageIndices(c, |doc|);
    PageIndicesInDocument(c, |doc|);
    CleanedChapter(c.number, c.title,
      ChapterContent(PageTexts(doc, indices), headers, footers),
      ChapterTables(doc, indices))
  }

  /** The texts of all pages, as seen by header and footer detection. */
  function DocumentTexts(doc: seq<Page>): (r: seq<string>)
    ensures |r| == |doc|
    ensures forall p :: 0 <= p < |doc| ==> r[p] == doc[p].text
  {
    seq(|doc|, p requires 0 <= p < |doc| => doc[p].text)
  }

  /** Every chapter of `chapters` processed in turn. */
  function ProcessChapters(doc: seq<Page>, chapters: seq<Chapter>, headers: set<string>, footers: set<string>): (r: seq<CleanedChapter>)
    requires forall i :: 0 <= i < |chapters| ==> chapters[i].startPage >= 1
    ensures |r| == |chapters|
    ensures forall i :: 0 <= i < |r| ==>
      && r[i].number == chapters[i].number
      && r[i].title == chapters[i].title
      && (forall j :: 0 <= j < |r[i].tables| ==> |r[i].tables[j].data| > 0)
  {
    seq(|chapters|, i requires 0 <= i < |chapters| => ProcessChapter(doc, chapters[i], headers, footers))
  }

  /** The running header and footer lines of the document, detected with 20
      sample pages and a threshold of one half. */
  function DocumentRunningLines(doc: seq<Page>): HeaderFooterSets {
    DetectHeadersFooters(DocumentTexts(doc), 20, 0.5)
  }

  /** The chapters list written by the script for document `doc`: running
      headers and footers are detected over the whole document, then each of
      the nine chapters is processed in turn. */
  function Monograph(doc: seq<Page>): (r: seq<CleanedChapter>)
    ensures |r| == |ChapterStarts|
  {
    var chapters := DetectChapters(|doc|);
    var sets := DocumentRunningLines(doc);
    ProcessChapters(doc, chapters, sets.headers, sets.footers)
  }

  /** Chapter `i` of the output is chapter `i` of the hand-written list
      processed with the document's running header and footer lines. */
  lemma MonographChapter(doc: seq<Page>, i: nat)
    requires i < |ChapterStarts|
    ensures DetectChapters(|doc|)[i].startPage >= 1
    ensures var sets := DocumentRunningLines(doc);
      Monograph(doc)[i] == ProcessChapter(doc, DetectChapters(|doc|)[i], sets.headers, sets.footers)
  {
  }

  /** Chapter `i` of the output carries the number and title of entry `i` of
      the hand-written list, and every table it names holds records. */
  lemma MonographChapterFacts(doc: seq<Page>, i: nat)
    requires i < |ChapterStarts|
    ensures var r := Monograph(doc)[i];
      && r.number == i + 1
      && r.title == ChapterStarts[i].title
      && forall j :: 0 <= j < |r.tables| ==> |r.tables[j].data| > 0
  {
    MonographChapter(doc, i);
    var c := DetectChapters(|doc|)[i];
    var t := Monograph(doc)[i].title;
    assert t == c.title;
  }

  /** The output lists the chapters of the hand-written list in order. */
  lemma MonographChapters(doc: seq<Page>)
    ensures forall i :: 0 <= i < |Monograph(doc)| ==>
      && Monograph(doc)[i].number == i + 1
      && Monograph(doc)[i].title == ChapterStarts[i].title
  {
    forall i | 0 <= i < |Monograph(doc)|
      ensures Monograph(doc)[i].number == i + 1 && Monograph(doc)[i].title == ChapterStarts[i].title
    {
      MonographChapterFacts(doc, i);
    }
  }

  /** The content of chapter `i` is cleaned text of the pages the chapter
      spans: no newline, only single-character spaces as whitespace, no
      whitespace at either end, the characters other than whitespace and
      hyphens of the lines those pages keep, in page order, and the cleaned
      pages joined by single spaces. */
  lemma MonographContent(doc: seq<Page>, i: nat)
    requires i < |ChapterStarts|
    ensures var c := DetectChapters(|doc|)[i];
      var sets := DocumentRunningLines(doc);
      var content := Monograph(doc)[i].content;
      && SpacesAreBlanks(content)
      && '\n' !in content
      && (|content| == 0 || (!IsSpace(content[0]) && !IsSpace(content[|content| - 1])))
      && (PageIndicesInDocument(c, |doc|);
          && Filter(content, IsNotSpaceOrHyphen) == AllKeptText(PageTexts(doc, PageIndices(c, |doc|)), sets.headers, sets.footers)
          && content == Strip(Join(CleanedPages(PageTexts(doc, PageIndices(c, |doc|)), sets.headers, sets.footers), ' ')))
  {
    var c := DetectChapters(|doc|)[i];
    var sets := DocumentRunningLines(doc);
    MonographChapter(doc, i);
    PageIndicesInDocument(c, |doc|);
    var texts := PageTexts(doc, PageIndices(c, |doc|));
    assert Monograph(doc)[i].content == ChapterContent(texts, sets.headers, sets.footers);
    ChapterContentSpec(texts, sets.headers, sets.footers);
  }

  /** A chapter record's tables are exactly the tables on the pages the
      chapter spans that format to records, each named after its page and
      position. */
  lemma ProcessChapterTables(doc: seq<Page>, c: Chapter, headers: set<string>, footers: set<string>)
    requires c.startPage >= 1
    ensures (PageIndicesInDocument(c, |doc|);
      CollectsPageTables(doc, PageIndices(c, |doc|), ProcessChapter(doc, c, headers, footers).tables))
  {
    PageIndicesInDocument(c, |doc|);
    ProcessedTables(doc, c, headers, footers);
    ChapterTablesSpec(doc, PageIndices(c, |doc|));
  }

  lemma ProcessedTables(doc: seq<Page>, c: Chapter, headers: set<string>, footers: set<string>)
    requires c.startPage >= 1
    ensures (PageIndicesInDocument(c, |doc|);
      ProcessChapter(doc, c, headers, footers).tables == ChapterTables(doc, PageIndices(c, |doc|)))
  {
  }

  /** The tables of chapter `i` of the output are exactly the tables on the
      pages the chapter spans that format to records. */
  lemma MonographTables(doc: seq<Page>, i: nat)
    requires i < |ChapterStarts|
    ensures var c := DetectChapters(|doc|)[i];
      (PageIndicesInDocument(c, |doc|);
       CollectsPageTables(doc, PageIndices(c, |doc|), Monograph(doc)[i].tables))
  {
    var sets := DocumentRunningLines(doc);
    MonographChapter(doc, i);
    ProcessChapterTables(doc, DetectChapters(|doc|)[i], sets.headers, sets.footers);
  }
}

=== FILE: header_footer.dfy ===
/** Detection of running headers and footers (`detect_common_headers_footers`):
    a vote over a window of sampled pages, a threshold on the vote counts, a
    fixed footer literal and every `Cancer Monograph <number>` found anywhere. */
module HeaderFooter {
  import opened Wrappers
  import opened Text

  /** Position of the first line whose stripped form is not empty. */
  function FirstNonBlankIndex(lines: seq<string>): (r: Option<nat>)
    ensures r.Some? ==> r.value < |lines| && Strip(lines[r.value]) != ""
    ensures forall j :: 0 <= j < |lines| && (r.None? || j < r.value) ==> Strip(lines[j]) == ""
  {
    if |lines| == 0 then None
    else if Strip(lines[0]) != "" then Some(0)
    else match FirstNonBlankIndex(lines[1..])
      case None => None
      case Some(k) => Some(k + 1)
  }

  /** Position of the last line whose stripped form is not empty. */
  function LastNonBlankIndex(lines: seq<string>): (r: Option<nat>)
    ensures r.Some? ==> r.value < |lines| && Strip(lines[r.value]) != ""
    ensures forall j :: 0 <= j < |lines| && (r.None? || j > r.value) ==> Strip(lines[j]) == ""
  {
    if |lines| == 0 then None
    else if Strip(lines[|lines| - 1]) != "" then Some(|lines| - 1)
    else
      var init := lines[..|lines| - 1];
      assert forall j :: 0 <= j < |init| ==> init[j] == lines[j];
      LastNonBlankIndex(init)
  }

  /** The header candidate of a page: its first non-blank line, stripped. */
  function HeaderCandidate(text: string): Option<string> {
    var lines := Lines(text);
    match FirstNonBlankIndex(lines)
    case None => None
    case Some(k) => Some(Strip(lines[k]))
  }

  /** The footer candidate of a page: its last non-blank line, stripped. */
  function FooterCandidate(text: string): Option<string> {
    var lines := Lines(text);
    match LastNonBlankIndex(lines)
    case None => None
    case Some(k) => Some(Strip(lines[k]))
  }

  /** The sample window `[max(10, n // 4), min(n - 10, start + sample_pages))`:
      the start is the larger of 10 and a quarter of the pages, rounded down;
      the end is the smaller of ten pages before the last and `samplePages`
      pages after the start. */
  function SampleWindow(pageCount: nat, samplePages: int): (w: (nat, int))
    ensures 10 <= w.0 && pageCount / 4 <= w.0
    ensures w.0 == 10 || w.0 == pageCount / 4
    ensures w.1 <= pageCount - 10
    ensures w.1 - w.0 <= samplePages
    ensures w.1 == pageCount - 10 || w.1 == w.0 + samplePages
    ensures pageCount <= 20 ==> w.1 <= w.0
  {
    var start := if 10 <= pageCount / 4 then pageCount / 4 else 10;
    var end := if pageCount - 10 <= start + samplePages then pageCount - 10 else start + samplePages;
    (start, end)
  }

  /** A 200-page document samples pages 50 to 69 with the default 20 pages;
      a 50-page document, pages 12 to 31; a 30-page one, pages 10 to 19. */
  lemma SampleWindowExamples()
    ensures SampleWindow(200, 20) == (50, 70)
    ensures SampleWindow(50, 20) == (12, 32)
    ensures SampleWindow(30, 20) == (10, 20)
  {
  }

  /** One page's part in the vote: whether it is sampled (it splits into more
      than two lines) and, if so, its header and footer candidates. */
  datatype Ballot = Ballot(sampled: bool, header: Option<string>, footer: Option<string>)

  function PageBallot(text: string): Ballot {
    if |Lines(text)| > 2 then Ballot(true, HeaderCandidate(text), FooterCandidate(text))
    else Ballot(false, None, None)
  }

  /** The ballot of every page of the document. */
  function Ballots(doc: seq<string>): (r: seq<Ballot>)
    ensures |r| == |doc|
    ensures forall p :: 0 <= p < |doc| ==> r[p] == PageBallot(doc[p])
  {
    seq(|doc|, p requires 0 <= p < |doc| => PageBallot(doc[p]))
  }

  /** The running state of the vote: pages counted and the two counters. */
  datatype Tally = Tally(sampled: nat, headerVotes: multiset<string>, footerVotes: multiset<string>)

  function VotesFor(o: Option<string>): multiset<string> {
    if o.Some? then multiset{o.value} else multiset{}
  }

  /** One page's contribution: a sampled page counts once and casts at most
      one header vote and one footer vote. */
  function Vote(t: Tally, b: Ballot): Tally {
    if b.sampled then Tally(t.sampled + 1, t.headerVotes + VotesFor(b.header), t.footerVotes + VotesFor(b.footer))
    else t
  }

  /** The vote over pages `lo .. hi - 1`. */
  function TallyWindow(ballots: seq<Ballot>, lo: nat, hi: int): (t: Tally)
    requires hi <= |ballots|
    ensures t.sampled <= if lo < hi then hi - lo else 0
    ensures |t.headerVotes| <= t.sampled && |t.footerVotes| <= t.sampled
    ensures forall l :: t.headerVotes[l] <= t.sampled && t.footerVotes[l] <= t.sampled
    decreases hi - lo
  {
    if hi <= lo then Tally(0, multiset{}, multiset{})
    else Vote(TallyWindow(ballots, lo, hi - 1), ballots[hi - 1])
  }

  /** The indices in `lo .. hi - 1` that satisfy `q`. */
  ghost function PagesWhere(lo: int, hi: int, q: int -> bool): set<int> {
    set p | lo <= p < hi && q(p)
  }

  lemma PagesWhereEmpty(lo: int, hi: int, q: int -> bool)
    requires hi <= lo
    ensures PagesWhere(lo, hi, q) == {}
  {
  }

  lemma PagesWhereStep(lo: int, hi: int, q: int -> bool)
    requires lo < hi
    ensures |PagesWhere(lo, hi, q)| == |PagesWhere(lo, hi - 1, q)| + if q(hi - 1) then 1 else 0
  {
    if q(hi - 1) {
      assert PagesWhere(lo, hi, q) == PagesWhere(lo, hi - 1, q) + {hi - 1};
    } else {
      assert PagesWhere(lo, hi, q) == PagesWhere(lo, hi - 1, q);
    }
  }

  /** Page `p` takes part in the vote. */
  function IsSampledPage(ballots: seq<Ballot>): int -> bool {
    (p: int) => 0 <= p < |ballots| && ballots[p].sampled
  }

  /** Page `p` takes part in the vote with header candidate `l`. */
  function HasHeader(ballots: seq<Ballot>, l: string): int -> bool {
    (p: int) => 0 <= p < |ballots| && ballots[p].sampled && ballots[p].header == Some(l)
  }

  /** Page `p` takes part in the vote with footer candidate `l`. */
  function HasFooter(ballots: seq<Ballot>, l: string): int -> bool {
    (p: int) => 0 <= p < |ballots| && ballots[p].sampled && ballots[p].footer == Some(l)
  }

  /** The pages of the window that take part in the vote. */
  ghost function SampledPages(ballots: seq<Ballot>, lo: int, hi: int): set<int> {
    PagesWhere(lo, hi, IsSampledPage(ballots))
  }

  /** The sampled pages whose header candidate is `l`. */
  ghost function HeaderPages(ballots: seq<Ballot>, lo: int, hi: int, l: string): set<int> {
    PagesWhere(lo, hi, HasHeader(ballots, l))
  }

  /** The sampled pages whose footer candidate is `l`. */
  ghost function FooterPages(ballots: seq<Ballot>, lo: int, hi: int, l: string): set<int> {
    PagesWhere(lo, hi, HasFooter(ballots, l))
  }

  /** What the last page of the window adds to the tally of the pages before it. */
  lemma TallyStep(ballots: seq<Ballot>, lo: nat, hi: int, l: string)
    requires lo < hi <= |ballots|
    ensures TallyWindow(ballots, lo, hi).sampled == TallyWindow(ballots, lo, hi - 1).sampled + if IsSampledPage(ballots)(hi - 1) then 1 else 0
    ensures TallyWindow(ballots, lo, hi).headerVotes[l] == TallyWindow(ballots, lo, hi - 1).headerVotes[l] + if HasHeader(ballots, l)(hi - 1) then 1 else 0
    ensures TallyWindow(ballots, lo, hi).footerVotes[l] == TallyWindow(ballots, lo, hi - 1).footerVotes[l] + if HasFooter(ballots, l)(hi - 1) then 1 else 0
  {
  }

  lemma {:induction false} TallySampledCount(ballots: seq<Ballot>, lo: nat, hi: int)
    requires hi <= |ballots|
    ensures TallyWindow(ballots, lo, hi).sampled == |SampledPages(ballots, lo, hi)|
    decreases hi - lo
  {
    if hi <= lo {
      PagesWhereEmpty(lo, hi, IsSampledPage(ballots));
    } else {
      TallySampledCount(ballots, lo, hi - 1);
      TallyStep(ballots, lo, hi, "");
      PagesWhereStep(lo, hi, IsSampledPage(ballots));
    }
  }

  lemma {:induction false} TallyHeaderCount(ballots: seq<Ballot>, lo: nat, hi: int, l: string)
    requires hi <= |ballots|
    ensures TallyWindow(ballots, lo, hi).headerVotes[l] == |HeaderPages(ballots, lo, hi, l)|
    decreases hi - lo
  {
    if hi <= lo {
      PagesWhereEmpty(lo, hi, HasHeader(ballots, l));
    } else {
      TallyHeaderCount(ballots, lo, hi - 1, l);
      TallyStep(ballots, lo, hi, l);
      PagesWhereStep(lo, hi, HasHeader(ballots, l));
    }
  }

  lemma {:induction false} TallyFooterCount(ballots: seq<Ballot>, lo: nat, hi: int, l: string)
    requires hi <= |ballots|
    ensures TallyWindow(ballots, lo, hi).footerVotes[l] == |FooterPages(ballots, lo, hi, l)|
    decreases hi - lo
  {
    if hi <= lo {
      PagesWhereEmpty(lo, hi, HasFooter(ballots, l));
    } else {
      TallyFooterCount(ballots, lo, hi - 1, l);
      TallyStep(ballots, lo, hi, l);
      PagesWhereStep(lo, hi, HasFooter(ballots, l));
    }
  }

  /** The counters hold, for each line, the number of sampled pages that have
      it as header (footer) candidate, and the page count is the number of
      sampled pages. */
  lemma TallyCountsPages(ballots: seq<Ballot>, lo: nat, hi: int)
    requires hi <= |ballots|
    ensures var t := TallyWindow(ballots, lo, hi);
      && t.sampled == |SampledPages(ballots, lo, hi)|
      && (forall l :: t.headerVotes[l] == |HeaderPages(ballots, lo, hi, l)|)
      && (forall l :: t.footerVotes[l] == |FooterPages(ballots, lo, hi, l)|)
  {
    TallySampledCount(ballots, lo, hi);
    forall l ensures TallyWindow(ballots, lo, hi).headerVotes[l] == |HeaderPages(ballots, lo, hi, l)| {
      TallyHeaderCount(ballots, lo, hi, l);
    }
    forall l ensures TallyWindow(ballots, lo, hi).footerVotes[l] == |FooterPages(ballots, lo, hi, l)| {
      TallyFooterCount(ballots, lo, hi, l);
    }
  }

  /** Python's `int(x)`: truncation toward zero. */
  function Truncate(x: real): int {
    if x >= 0.0 then x.Floor else -((-x).Floor)
  }

  /** `int(num_sampled * threshold)` */
  function MinCount(sampled: nat, threshold: real): int {
    Truncate(sampled as real * threshold)
  }

  /** With the default threshold 0.5 the bar is half the sampled pages, rounded down. */
  lemma MinCountHalf(sampled: nat)
    ensures MinCount(sampled, 0.5) == sampled / 2
  {
    var q := sampled / 2;
    var x := sampled as real * 0.5;
    if sampled % 2 == 0 {
      assert x == q as real;
    } else {
      assert x == q as real + 0.5;
    }
  }

  /** The literal part of the footer pattern `Cancer Monograph\s*\d+`. */
  const MonographPrefix: string := "Cancer Monograph"

  /** The first character of `prefix` occurs nowhere else in it and is
      neither whitespace nor a digit, so two matches of `prefix\s*\d+`
      cannot overlap. */
  predicate LeadIsUnique(prefix: string) {
    && |prefix| > 0
    && !IsSpace(prefix[0]) && !IsDigit(prefix[0])
    && forall j :: 1 <= j < |prefix| ==> prefix[j] != prefix[0]
  }

  lemma MonographPrefixLeadIsUnique()
    ensures LeadIsUnique(MonographPrefix)
  {
  }

  /** The length of the match of `prefix\s*\d+` that starts at `i`, if any:
      the prefix, all the whitespace after it, then at least one digit and
      all the digits that follow. */
  function MatchAt(t: string, i: nat, prefix: string): (r: Option<nat>)
    requires i <= |t|
    ensures r.Some? ==> i + |prefix| < i + r.value <= |t|
  {
    var n := |prefix|;
    if i + n <= |t| && StartsWith(t, i, prefix) then
      var s := RunEnd(t, i + n, IsSpace);
      if s < |t| && IsDigit(t[s]) then Some(RunEnd(t, s, IsDigit) - i) else None
    else None
  }

  /** A match is the prefix followed by whitespace and digits, ending in a digit. */
  lemma MatchShape(t: string, i: nat, prefix: string)
    requires i <= |t| && MatchAt(t, i, prefix).Some?
    ensures StartsWith(t, i, prefix)
    ensures forall k :: i + |prefix| <= k < i + MatchAt(t, i, prefix).value ==> IsSpace(t[k]) || IsDigit(t[k])
    ensures IsDigit(t[i + MatchAt(t, i, prefix).value - 1])
    ensures i + MatchAt(t, i, prefix).value == |t| || !IsDigit(t[i + MatchAt(t, i, prefix).value])
  {
  }

  /** Wherever the prefix is followed by whitespace and a digit, a match starts. */
  lemma MatchComplete(t: string, i: nat, prefix: string, s: nat)
    requires i + |prefix| <= s < |t|
    requires StartsWith(t, i, prefix)
    requires forall k :: i + |prefix| <= k < s ==> IsSpace(t[k])
    requires IsDigit(t[s])
    ensures MatchAt(t, i, prefix).Some?
    ensures i + MatchAt(t, i, prefix).value == RunEnd(t, s, IsDigit)
  {
    RunEndIs(t, i + |prefix|, IsSpace, s);
  }

  /** `pattern.findall(t[i:])`: scan left to right, resuming after each match. */
  function FindAll(t: string, i: nat, prefix: string): seq<string>
    requires i <= |t|
    decreases |t| - i
  {
    if i == |t| then []
    else match MatchAt(t, i, prefix)
      case Some(n) => [t[i..i + n]] + FindAll(t, i + n, prefix)
      case None => FindAll(t, i + 1, prefix)
  }

  /** Positions where a match starts. */
  function IsMatchStart(t: string, prefix: string): int -> bool {
    (k: int) => 0 <= k <= |t| && MatchAt(t, k, prefix).Some?
  }

  /** The text of the match at a position (empty where there is none). */
  function MatchTextAt(t: string, prefix: string): int -> string {
    (k: int) => if 0 <= k <= |t| && MatchAt(t, k, prefix).Some? then t[k..k + MatchAt(t, k, prefix).value] else ""
  }

  /** The values `f(k)` for the positions `lo <= k < hi` that satisfy `q`. */
  ghost function Image(lo: int, hi: int, q: int -> bool, f: int -> string): set<string> {
    set k | lo <= k < hi && q(k) :: f(k)
  }

  lemma ImageEmpty(lo: int, hi: int, q: int -> bool, f: int -> string)
    requires hi <= lo
    ensures Image(lo, hi, q, f) == {}
  {
  }

  lemma ImageSkip(lo: int, hi: int, q: int -> bool, f: int -> string)
    requires lo < hi && !q(lo)
    ensures Image(lo, hi, q, f) == Image(lo + 1, hi, q, f)
  {
    forall x | x in Image(lo, hi, q, f) ensures x in Image(lo + 1, hi, q, f) {
      var k :| lo <= k < hi && q(k) && x == f(k);
      assert k != lo;
    }
  }

  lemma ImageTake(lo: int, m: int, hi: int, q: int -> bool, f: int -> string)
    requires lo < m <= hi && q(lo)
    requires forall k :: lo < k < m ==> !q(k)
    ensures Image(lo, hi, q, f) == {f(lo)} + Image(m, hi, q, f)
  {
    forall x | x in Image(lo, hi, q, f) ensures x in {f(lo)} + Image(m, hi, q, f) {
      var k :| lo <= k < hi && q(k) && x == f(k);
      if k != lo {
        assert k >= m;
        assert x in Image(m, hi, q, f);
      }
    }
    forall x | x in Image(m, hi, q, f) ensures x in Image(lo, hi, q, f) {
      var k :| m <= k < hi && q(k) && x == f(k);
      assert lo <= k;
    }
    assert f(lo) in Image(lo, hi, q, f);
  }

  /** Every match of the pattern at a position `>= i`, whatever the scan order. */
  ghost function MatchesFrom(t: string, i: nat, prefix: string): set<string> {
    Image(i, |t|, IsMatchStart(t, prefix), MatchTextAt(t, prefix))
  }

  lemma MatchStartsWithLead(t: string, k: nat, prefix: string)
    requires k <= |t| && |prefix| > 0
    ensures MatchAt(t, k, prefix).Some? ==> k < |t| && t[k] == prefix[0]
  {
    if MatchAt(t, k, prefix).Some? {
      MatchShape(t, k, prefix);
      StartsWithChars(t, k, prefix);
    }
  }

  /** Inside a match, only its first character is the lead character. */
  lemma NoLeadInsideMatch(t: string, i: nat, k: nat, prefix: string)
    requires LeadIsUnique(prefix)
    requires i <= |t| && MatchAt(t, i, prefix).Some?
    requires i < k < i + MatchAt(t, i, prefix).value
    ensures t[k] != prefix[0]
  {
    MatchShape(t, i, prefix);
    if k < i + |prefix| {
      StartsWithChars(t, i, prefix);
      assert t[k] == prefix[k - i];
    } else {
      assert IsSpace(t[k]) || IsDigit(t[k]);
    }
  }

  lemma NoMatchInside(t: string, i: nat, k: nat, prefix: string)
    requires LeadIsUnique(prefix)
    requires i <= |t| && MatchAt(t, i, prefix).Some?
    requires i < k < i + MatchAt(t, i, prefix).value
    ensures MatchAt(t, k, prefix).None?
  {
    NoLeadInsideMatch(t, i, k, prefix);
    MatchStartsWithLead(t, k, prefix);
  }

  function Elements(s: seq<string>): set<string> {
    set m | m in s
  }

  lemma ElementsCons(x: string, s: seq<string>)
    ensures Elements([x] + s) == {x} + Elements(s)
  {
  }

  /** After a match the scan resumes at its end and loses nothing. */
  lemma FindAfterMatch(t: string, i: nat, prefix: string)
    requires LeadIsUnique(prefix)
    requires i < |t| && MatchAt(t, i, prefix).Some?
    requires Elements(FindAll(t, i + MatchAt(t, i, prefix).value, prefix))
          == MatchesFrom(t, i + MatchAt(t, i, prefix).value, prefix)
    ensures Elements(FindAll(t, i, prefix)) == MatchesFrom(t, i, prefix)
  {
    FoundAtMatch(t, i, prefix);
    MatchesAtMatch(t, i, prefix);
  }

  lemma FoundAtMatch(t: string, i: nat, prefix: string)
    requires i < |t| && MatchAt(t, i, prefix).Some?
    ensures var n := MatchAt(t, i, prefix).value;
      Elements(FindAll(t, i, prefix)) == {t[i..i + n]} + Elements(FindAll(t, i + n, prefix))
  {
    var n := MatchAt(t, i, prefix).value;
    FindAllAtMatch(t, i, prefix);
    ElementsCons(t[i..i + n], FindAll(t, i + n, prefix));
  }

  lemma MatchesAtMatch(t: string, i: nat, prefix: string)
    requires LeadIsUnique(prefix)
    requires i < |t| && MatchAt(t, i, prefix).Some?
    ensures var n := MatchAt(t, i, prefix).value;
      MatchesFrom(t, i, prefix) == {t[i..i + n]} + MatchesFrom(t, i + n, prefix)
  {
    var n := MatchAt(t, i, prefix).value;
    var q := IsMatchStart(t, prefix);
    var f := MatchTextAt(t, prefix);
    var m := t[i..i + n];
    NoMatchStartsInside(t, i, prefix);
    ImageTake(i, i + n, |t|, q, f);
    MatchTextOfMatch(t, i, prefix);
  }

  lemma MatchTextOfMatch(t: string, i: nat, prefix: string)
    requires i < |t| && MatchAt(t, i, prefix).Some?
    ensures MatchTextAt(t, prefix)(i) == t[i..i + MatchAt(t, i, prefix).value]
  {
  }

  lemma NoMatchStartsInside(t: string, i: nat, prefix: string)
    requires LeadIsUnique(prefix)
    requires i < |t| && MatchAt(t, i, prefix).Some?
    ensures forall k :: i < k < i + MatchAt(t, i, prefix).value ==> !IsMatchStart(t, prefix)(k)
  {
    forall k | i < k < i + MatchAt(t, i, prefix).value ensures !IsMatchStart(t, prefix)(k) {
      NoMatchInside(t, i, k, prefix);
    }
  }

  lemma FindAllAtMatch(t: string, i: nat, prefix: string)
    requires i < |t| && MatchAt(t, i, prefix).Some?
    ensures FindAll(t, i, prefix)
         == [t[i..i + MatchAt(t, i, prefix).value]] + FindAll(t, i + MatchAt(t, i, prefix).value, prefix)
  {
  }

  lemma FindAfterMiss(t: string, i: nat, prefix: string)
    requires i < |t| && MatchAt(t, i, prefix).None?
    requires Elements(FindAll(t, i + 1, prefix)) == MatchesFrom(t, i + 1, prefix)
    ensures Elements(FindAll(t, i, prefix)) == MatchesFrom(t, i, prefix)
  {
    ImageSkip(i, |t|, IsMatchStart(t, prefix), MatchTextAt(t, prefix));
  }

  /** The left-to-right scan finds every match: matches cannot overlap because
      each one starts with the only lead character it contains. */
  lemma {:induction false} FindAllFindsAll(t: string, i: nat, prefix: string)
    requires LeadIsUnique(prefix)
    requires i <= |t|
    ensures Elements(FindAll(t, i, prefix)) == MatchesFrom(t, i, prefix)
    decreases |t| - i
  {
    if i == |t| {
      ImageEmpty(i, |t|, IsMatchStart(t, prefix), MatchTextAt(t, prefix));
    } else if MatchAt(t, i, prefix).Some? {
      FindAllFindsAll(t, i + MatchAt(t, i, prefix).value, prefix);
      FindAfterMatch(t, i, prefix);
    } else {
      FindAllFindsAll(t, i + 1, prefix);
      FindAfterMiss(t, i, prefix);
    }
  }

  function StripAll(ms: set<string>): set<string> {
    set m | m in ms :: Strip(m)
  }

  /** What the scan of one page adds to the footers: every match, stripped. */
  function ScannedFooters(text: string): set<string> {
    StripAll(Elements(FindAll(text, 0, MonographPrefix)))
  }

  /** The union of `g` over the pages of `doc`, page after page. */
  function UnionOverPages(doc: seq<string>, g: string -> set<string>): set<string> {
    if |doc| == 0 then {} else UnionOverPages(doc[..|doc| - 1], g) + g(doc[|doc| - 1])
  }

  lemma {:induction false} UnionOverPagesMembers(doc: seq<string>, g: string -> set<string>, x: string)
    ensures x in UnionOverPages(doc, g) <==> exists p :: 0 <= p < |doc| && x in g(doc[p])
    decreases |doc|
  {
    if |doc| > 0 {
      var init := doc[..|doc| - 1];
      UnionOverPagesMembers(init, g, x);
      if exists p :: 0 <= p < |doc| && x in g(doc[p]) {
        var p :| 0 <= p < |doc| && x in g(doc[p]);
        if p < |init| {
          assert doc[p] == init[p];
        }
      }
      if exists p :: 0 <= p < |init| && x in g(init[p]) {
        var p :| 0 <= p < |init| && x in g(init[p]);
        assert init[p] == doc[p];
      }
    }
  }

  /** The footer strings the pattern contributes over the whole document. */
  function MonographFooters(doc: seq<string>): set<string> {
    UnionOverPages(doc, ScannedFooters)
  }

  /** `x` is a stripped match of the pattern on some page of `doc`. */
  ghost predicate IsMonographFooter(doc: seq<string>, x: string) {
    exists p :: 0 <= p < |doc| && x in StripAll(MatchesFrom(doc[p], 0, MonographPrefix))
  }

  /** The scan of one page collects exactly its stripped matches. */
  lemma ScannedFootersAreMatches(text: string)
    ensures ScannedFooters(text) == StripAll(MatchesFrom(text, 0, MonographPrefix))
  {
    MonographPrefixLeadIsUnique();
    FindAllFindsAll(text, 0, MonographPrefix);
  }

  /** The page-by-page scan collects exactly the stripped matches of every page. */
  lemma MonographFootersAreAllMatches(doc: seq<string>, x: string)
    ensures x in MonographFooters(doc) <==> IsMonographFooter(doc, x)
  {
    UnionOverPagesMembers(doc, ScannedFooters, x);
    if x in MonographFooters(doc) {
      var p :| 0 <= p < |doc| && x in ScannedFooters(doc[p]);
      ScannedFootersAreMatches(doc[p]);
    }
    if IsMonographFooter(doc, x) {
      var p :| 0 <= p < |doc| && x in StripAll(MatchesFrom(doc[p], 0, MonographPrefix));
      ScannedFootersAreMatches(doc[p]);
    }
  }

  /** The two sets the detector returns. */
  datatype HeaderFooterSets = HeaderFooterSets(headers: set<string>, footers: set<string>)

  /** The footer literal that is always added. */
  const FixedFooter: string := "icma"

  /** The lines whose vote count reaches the bar (`Counter.items()` only
      holds lines with at least one vote). */
  function AboveBar(votes: multiset<string>, bar: int): (r: set<string>)
    ensures forall l :: l in r <==> votes[l] > 0 && votes[l] >= bar
  {
    set l | l in votes && votes[l] >= bar
  }

  lemma MonographFootersSpec(doc: seq<string>)
    ensures forall x :: x in MonographFooters(doc) <==> IsMonographFooter(doc, x)
  {
    forall x ensures x in MonographFooters(doc) <==> IsMonographFooter(doc, x) {
      MonographFootersAreAllMatches(doc, x);
    }
  }

  /** `detect_common_headers_footers(doc, sample_pages, threshold)` over the page texts. */
  function DetectHeadersFooters(doc: seq<string>, samplePages: int, threshold: real): (r: HeaderFooterSets)
    ensures var (lo, hi) := SampleWindow(|doc|, samplePages);
      var bar := MinCount(|SampledPages(Ballots(doc), lo, hi)|, threshold);
      && (forall l :: l in r.headers <==> |HeaderPages(Ballots(doc), lo, hi, l)| > 0 && |HeaderPages(Ballots(doc), lo, hi, l)| >= bar)
      && (forall l :: l in r.footers <==>
            || (|FooterPages(Ballots(doc), lo, hi, l)| > 0 && |FooterPages(Ballots(doc), lo, hi, l)| >= bar)
            || l == FixedFooter
            || IsMonographFooter(doc, l))
    ensures |doc| <= 20 ==> r.headers == {}
  {
    var (lo, hi) := SampleWindow(|doc|, samplePages);
    var t := TallyWindow(Ballots(doc), lo, hi);
    var minCount := MinCount(t.sampled, threshold);
    TallyCountsPages(Ballots(doc), lo, hi);
    MonographFootersSpec(doc);
    HeaderFooterSets(AboveBar(t.headerVotes, minCount), AboveBar(t.footerVotes, minCount) + {FixedFooter} + MonographFooters(doc))
  }

  /** Every vote count is at most the number of sampled pages, which is at
      most the sample size (20 by default). */
  lemma VoteBounds(doc: seq<string>, samplePages: int)
    ensures var (lo, hi) := SampleWindow(|doc|, samplePages);
      && |SampledPages(Ballots(doc), lo, hi)| <= (if samplePages > 0 then samplePages else 0)
      && forall l :: |HeaderPages(Ballots(doc), lo, hi, l)| <= |SampledPages(Ballots(doc), lo, hi)|
                  && |FooterPages(Ballots(doc), lo, hi, l)| <= |SampledPages(Ballots(doc), lo, hi)|
  {
    var (lo, hi) := SampleWindow(|doc|, samplePages);
    TallyCountsPages(Ballots(doc), lo, hi);
  }

  /** The default call `detect_common_headers_footers(doc)`: a line is a
      header exactly when it heads at least half (rounded down) of the sampled
      pages, and at least one. */
  lemma DefaultDetection(doc: seq<string>, l: string)
    ensures var (lo, hi) := SampleWindow(|doc|, 20);
      var votes := |HeaderPages(Ballots(doc), lo, hi, l)|;
      l in DetectHeadersFooters(doc, 20, 0.5).headers <==> votes > 0 && votes >= |SampledPages(Ballots(doc), lo, hi)| / 2
  {
    var (lo, hi) := SampleWindow(|doc|, 20);
    MinCountHalf(|SampledPages(Ballots(doc), lo, hi)|);
  }

}

=== FILE: page_cleaner.dfy ===
/** Cleaning of one page's text (`clean_page_text`): drop running header and
    footer lines, join words hyphenated across a line break, the paragraph
    merge rewrite, and whitespace normalisation. */
module PageCleaner {
  import opened Wrappers
  import opened Seqs
  import opened Text

  // ---------------------------------------------------------------- line filter

  /** A line survives when its stripped form is neither a header nor a footer. */
  function KeepLine(headers: set<string>, footers: set<string>): string -> bool {
    (line: string) => Strip(line) !in headers && Strip(line) !in footers
  }

  /** The list comprehension that drops running header and footer lines. */
  function DropRunningLines(lines: seq<string>, headers: set<string>, footers: set<string>): seq<string> {
    Filter(lines, KeepLine(headers, footers))
  }

  /** The surviving lines are exactly the lines whose stripped form is in
      neither set, each as often as it occurs, and in their original order. */
  lemma DropRunningLinesSpec(lines: seq<string>, headers: set<string>, footers: set<string>)
    ensures var kept := DropRunningLines(lines, headers, footers);
      && (forall l :: multiset(kept)[l] == if Strip(l) !in headers && Strip(l) !in footers then multiset(lines)[l] else 0)
      && IsSubsequence(kept, lines)
  {
    FilterCounts(lines, KeepLine(headers, footers));
    FilterIsSubsequence(lines, KeepLine(headers, footers));
  }

  // ------------------------------------------------------------ de-hyphenation

  /** `t[a..b]` is whitespace around exactly one hyphen, and the whitespace
      after the hyphen holds a newline: the `\s*-\s*\n\s*` part of the pattern. */
  ghost predicate HyphenGap(t: string, a: nat, b: nat)
    requires a <= b <= |t|
  {
    exists h :: a <= h < b && t[h] == '-'
      && (forall k :: a <= k < b && k != h ==> IsSpace(t[k]))
      && '\n' in t[h + 1..b]
  }

  /** The match of `(\w+)\s*-\s*\n\s*(\w+)` that starts at `i`, if any, as
      `(e1, s2, e2)`: group 1 is `t[i..e1]` and group 2 is `t[s2..e2]`.
      Both groups are maximal word runs, the gap between them is whitespace
      around one hyphen, and the whitespace after the hyphen holds a newline. */
  function HyphenMatch(t: string, i: nat): (r: Option<(nat, nat, nat)>)
    requires i <= |t|
    ensures r.Some? ==> i < r.value.0 < r.value.1 < r.value.2 <= |t|
    ensures r.Some? ==> forall k :: r.value.0 <= k < r.value.1 ==> IsSpace(t[k]) || t[k] == '-'
    ensures r.Some? ==> '\n' in t && '-' in t
  {
    var e1 := RunEnd(t, i, IsWordChar);
    if e1 == i then None
    else
      var h := RunEnd(t, e1, IsSpace);
      if h < |t| && t[h] == '-' then
        var s2 := RunEnd(t, h + 1, IsSpace);
        if '\n' in t[h + 1..s2] && s2 < |t| && IsWordChar(t[s2]) then
          Some((e1, s2, RunEnd(t, s2, IsWordChar)))
        else None
      else None
  }

  /** A match is a maximal word run, the hyphen gap, and a second maximal
      word run. */
  lemma HyphenMatchShape(t: string, i: nat)
    requires i <= |t| && HyphenMatch(t, i).Some?
    ensures var (e1, s2, e2) := HyphenMatch(t, i).value;
      && (forall k :: i <= k < e1 ==> IsWordChar(t[k]))
      && e1 < |t| && !IsWordChar(t[e1])
      && HyphenGap(t, e1, s2)
      && (forall k :: s2 <= k < e2 ==> IsWordChar(t[k]))
      && (e2 == |t| || !IsWordChar(t[e2]))
  {
    var e1 := RunEnd(t, i, IsWordChar);
    var h := RunEnd(t, e1, IsSpace);
    var s2 := RunEnd(t, h + 1, IsSpace);
    assert forall k :: e1 <= k < s2 && k != h ==> IsSpace(t[k]);
    assert HyphenGap(t, e1, s2);
  }

  /** Wherever the text at `i` has the pattern's shape (a word run, whitespace,
      a hyphen, whitespace holding a newline, a word character) the match is
      found, with group 1 ending at the hyphen gap and group 2 the whole word
      run after it. */
  lemma HyphenMatchComplete(t: string, i: nat, e1: nat, h: nat, s2: nat)
    requires i < e1 <= h < s2 < |t|
    requires forall k :: i <= k < e1 ==> IsWordChar(t[k])
    requires forall k :: e1 <= k < h ==> IsSpace(t[k])
    requires t[h] == '-'
    requires forall k :: h < k < s2 ==> IsSpace(t[k])
    requires '\n' in t[h + 1..s2]
    requires IsWordChar(t[s2])
    ensures HyphenMatch(t, i) == Some((e1, s2, RunEnd(t, s2, IsWordChar)))
  {
    RunEndIs(t, i, IsWordChar, e1);
    RunEndIs(t, e1, IsSpace, h);
    RunEndIs(t, h + 1, IsSpace, s2);
    HyphenMatchOfRuns(t, i, e1, h, s2);
  }

  /** Whitespace between the hyphen and the newline does not stop the match:
      `"cate- \ngory"` matches with groups `"cate"` and `"gory"`. */
  lemma HyphenMatchSpacedBreak()
    ensures HyphenMatch("cate- \ngory", 0) == Some((4, 7, 11))
  {
    var t := "cate- \ngory";
    assert t[5..7] == " \n";
    HyphenMatchComplete(t, 0, 4, 4, 7);
    RunEndIs(t, 7, IsWordChar, 11);
  }

  lemma HyphenMatchOfRuns(t: string, i: nat, e1: nat, h: nat, s2: nat)
    requires i < e1 <= h < s2 < |t|
    requires RunEnd(t, i, IsWordChar) == e1
    requires RunEnd(t, e1, IsSpace) == h && t[h] == '-'
    requires RunEnd(t, h + 1, IsSpace) == s2
    requires '\n' in t[h + 1..s2] && IsWordChar(t[s2])
    ensures HyphenMatch(t, i) == Some((e1, s2, RunEnd(t, s2, IsWordChar)))
  {
  }

  /** `re.sub(r'(\w+)\s*-\s*\n\s*(\w+)', r'\1\2', t[i:])`: scanning left to
      right, each match is replaced by its two groups and the scan resumes
      after it; elsewhere characters are copied. */
  function DehyphenateFrom(t: string, i: nat): string
    requires i <= |t|
    decreases |t| - i
  {
    if i == |t| then []
    else match HyphenMatch(t, i)
      case Some((e1, s2, e2)) => t[i..e1] + t[s2..e2] + DehyphenateFrom(t, e2)
      case None => [t[i]] + DehyphenateFrom(t, i + 1)
  }

  function Dehyphenate(t: string): string {
    DehyphenateFrom(t, 0)
  }

  /** Dropping a gap none of whose characters satisfies `q` from between `x`
      and `y` does not change what `Filter` by `q` keeps. */
  lemma FilterDropsGap(x: string, gap: string, y: string, z: string, q: char -> bool)
    requires forall k :: 0 <= k < |gap| ==> !q(gap[k])
    ensures Filter(x + gap + y + z, q) == Filter(x + y, q) + Filter(z, q)
  {
    FilterConcat(x + gap, y, q);
    FilterConcat(x, gap, q);
    FilterOfNone(gap, q);
    assert Filter(x + gap, q) == Filter(x, q) + [];
    assert Filter(x, q) + [] == Filter(x, q);
    FilterConcat(x, y, q);
    assert Filter(x + gap + y, q) == Filter(x + y, q);
    FilterConcat(x + gap + y, z, q);
  }

  /** Characters that de-hyphenation never removes: anything but whitespace
      and the hyphen. */
  predicate IsNotSpaceOrHyphen(c: char) {
    !IsSpace(c) && c != '-'
  }

  /** One replaced match keeps the `q`-characters of the text it covers when
      the gap it drops holds none. */
  lemma MatchKeeps(t: string, i: nat, e1: nat, s2: nat, e2: nat, rest: string, q: char -> bool)
    requires i <= e1 <= s2 <= e2 <= |t|
    requires forall k :: e1 <= k < s2 ==> !q(t[k])
    requires Filter(rest, q) == Filter(t[e2..], q)
    ensures Filter(t[i..e1] + t[s2..e2] + rest, q) == Filter(t[i..], q)
  {
    FilterConcat(t[i..e1] + t[s2..e2], rest, q);
    assert t[i..] == t[i..e1] + t[e1..s2] + t[s2..e2] + t[e2..];
    FilterDropsGap(t[i..e1], t[e1..s2], t[s2..e2], t[e2..], q);
  }

  /** Copying one character keeps the `q`-characters of the text it covers. */
  lemma CopyKeeps(t: string, i: nat, rest: string, q: char -> bool)
    requires i < |t|
    requires Filter(rest, q) == Filter(t[i + 1..], q)
    ensures Filter([t[i]] + rest, q) == Filter(t[i..], q)
  {
    FilterConcat([t[i]], rest, q);
    assert t[i..] == [t[i]] + t[i + 1..];
    FilterConcat([t[i]], t[i + 1..], q);
  }

  lemma GapKeepsNothing(t: string, a: nat, b: nat, q: char -> bool)
    requires a <= b <= |t|
    requires forall k :: a <= k < b ==> IsSpace(t[k]) || t[k] == '-'
    requires forall c :: q(c) ==> IsNotSpaceOrHyphen(c)
    ensures forall k :: a <= k < b ==> !q(t[k])
  {
  }

  lemma MatchStepKeeps(t: string, i: nat, q: char -> bool)
    requires i < |t| && HyphenMatch(t, i).Some?
    requires forall c :: q(c) ==> IsNotSpaceOrHyphen(c)
    requires Filter(DehyphenateFrom(t, HyphenMatch(t, i).value.2), q) == Filter(t[HyphenMatch(t, i).value.2..], q)
    ensures Filter(DehyphenateFrom(t, i), q) == Filter(t[i..], q)
  {
    var e1, s2, e2 := HyphenMatch(t, i).value.0, HyphenMatch(t, i).value.1, HyphenMatch(t, i).value.2;
    assert DehyphenateFrom(t, i) == t[i..e1] + t[s2..e2] + DehyphenateFrom(t, e2);
    GapKeepsNothing(t, e1, s2, q);
    MatchKeeps(t, i, e1, s2, e2, DehyphenateFrom(t, e2), q);
  }

  /** The rewrite from position `i` keeps, in order, every character of the
      rest of the text that is neither whitespace nor a hyphen, and in
      particular every word character. */
  lemma {:induction false} DehyphenateFromKeeps(t: string, i: nat, q: char -> bool)
    requires i <= |t|
    requires forall c :: q(c) ==> IsNotSpaceOrHyphen(c)
    ensures Filter(DehyphenateFrom(t, i), q) == Filter(t[i..], q)
    decreases |t| - i
  {
    if i < |t| {
      var m := HyphenMatch(t, i);
      if m.Some? {
        var e2 := m.value.2;
        DehyphenateFromKeeps(t, e2, q);
        MatchStepKeeps(t, i, q);
      } else {
        assert DehyphenateFrom(t, i) == [t[i]] + DehyphenateFrom(t, i + 1);
        DehyphenateFromKeeps(t, i + 1, q);
        CopyKeeps(t, i, DehyphenateFrom(t, i + 1), q);
      }
    }
  }

  lemma CategoryMatch(t: string)
    requires t == "cate-\ngory"
    ensures HyphenMatch(t, 0) == Some((4, 6, 10))
  {
    RunEndIs(t, 0, IsWordChar, 4);
    RunEndIs(t, 4, IsSpace, 4);
    RunEndIs(t, 5, IsSpace, 6);
    assert t[5..6] == "\n";
    RunEndIs(t, 6, IsWordChar, 10);
  }

  lemma CategoryJoined(t: string)
    requires t == "cate-\ngory"
    ensures Dehyphenate(t) == "category"
  {
    CategoryMatch(t);
    assert DehyphenateFrom(t, 10) == [];
    assert t[0..4] + t[6..10] == "category";
  }

  /** A word hyphenated across a line break is joined back together. */
  lemma DehyphenateJoinsWord()
    ensures Dehyphenate("cate-\ngory") == "category"
  {
    CategoryJoined("cate-\ngory");
  }

  lemma ChainFirstMatch(t: string)
    requires t == "a-\nb-\nc"
    ensures HyphenMatch(t, 0) == Some((1, 3, 4))
  {
    RunEndIs(t, 0, IsWordChar, 1);
    RunEndIs(t, 1, IsSpace, 1);
    RunEndIs(t, 2, IsSpace, 3);
    assert t[2..3] == "\n";
    RunEndIs(t, 3, IsWordChar, 4);
  }

  lemma ChainRest(t: string)
    requires t == "a-\nb-\nc"
    ensures DehyphenateFrom(t, 4) == "-\nc"
  {
    RunEndIs(t, 4, IsWordChar, 4);
    assert HyphenMatch(t, 4) == None;
    RunEndIs(t, 5, IsWordChar, 5);
    assert HyphenMatch(t, 5) == None;
    RunEndIs(t, 6, IsWordChar, 7);
    RunEndIs(t, 7, IsSpace, 7);
    assert HyphenMatch(t, 6) == None;
    assert DehyphenateFrom(t, 7) == [];
    assert DehyphenateFrom(t, 6) == "c";
    assert DehyphenateFrom(t, 5) == "\nc";
  }

  lemma ChainJoined(t: string)
    requires t == "a-\nb-\nc"
    ensures Dehyphenate(t) == "ab-\nc"
  {
    ChainFirstMatch(t);
    ChainRest(t);
    assert t[0..1] + t[3..4] == "ab";
  }

  /** Matches do not overlap: the word consumed as the second group of one
      match cannot start the next, so a chain of hyphenated fragments is only
      joined pairwise. */
  lemma DehyphenateChain()
    ensures Dehyphenate("a-\nb-\nc") == "ab-\nc"
  {
    ChainJoined("a-\nb-\nc");
  }

  /** De-hyphenation only removes hyphens and whitespace: every other
      character, word characters included, comes out unchanged and in order. */
  lemma DehyphenateKeepsWords(t: string)
    ensures Filter(Dehyphenate(t), IsNotSpaceOrHyphen) == Filter(t, IsNotSpaceOrHyphen)
    ensures Filter(Dehyphenate(t), IsWordChar) == Filter(t, IsWordChar)
  {
    DehyphenateFromKeeps(t, 0, IsNotSpaceOrHyphen);
    DehyphenateFromKeeps(t, 0, IsWordChar);
    assert t[0..] == t;
  }

  lemma {:induction false} DehyphenateFromWithoutBreak(t: string, i: nat)
    requires i <= |t|
    requires '\n' !in t || '-' !in t
    ensures DehyphenateFrom(t, i) == t[i..]
    decreases |t| - i
  {
    if i < |t| {
      assert HyphenMatch(t, i).None?;
      DehyphenateFromWithoutBreak(t, i + 1);
      assert t[i..] == [t[i]] + t[i + 1..];
    }
  }

  /** Text without a newline, or without a hyphen, has nothing to de-hyphenate. */
  lemma DehyphenateWithoutBreak(t: string)
    requires '\n' !in t || '-' !in t
    ensures Dehyphenate(t) == t
  {
    DehyphenateFromWithoutBreak(t, 0);
    assert t[0..] == t;
  }

  // ---------------------------------------------------------- paragraph merge

  /** The lookahead alternative `\s*.` at `q`: optional whitespace, then any
      character other than a newline. */
  predicate SpacesThenAnyChar(t: string, q: nat)
    decreases |t| - q
  {
    q < |t| && (t[q] != '\n' || SpacesThenAnyChar(t, q + 1))
  }

  /** `\d+\.\s` at `q` */
  predicate DigitsDotSpace(t: string, q: nat)
    decreases |t| - q
  {
    q < |t| && IsDigit(t[q]) &&
      ((q + 2 < |t| && t[q + 1] == '.' && IsSpace(t[q + 2])) || DigitsDotSpace(t, q + 1))
  }

  /** The lookahead alternative `\s*\d+\.\s` at `q`. */
  predicate SpacesThenListMarker(t: string, q: nat)
    decreases |t| - q
  {
    q < |t| && (DigitsDotSpace(t, q) || (IsSpace(t[q]) && SpacesThenListMarker(t, q + 1)))
  }

  /** The lookahead `(?=\n|\s*.|\s*\d+\.\s)` at `q`. */
  predicate MergeLookahead(t: string, q: nat)
    requires q <= |t|
  {
    (q < |t| && t[q] == '\n') || SpacesThenAnyChar(t, q) || SpacesThenListMarker(t, q)
  }

  /** `(?<!\n)\n(?!\n|\s*.|\s*\d+\.\s)` matches at `p`. */
  predicate MergeableNewline(t: string, p: nat)
    requires p < |t|
  {
    t[p] == '\n' && !(p > 0 && t[p - 1] == '\n') && !MergeLookahead(t, p + 1)
  }

  /** `re.sub(r'(?<!\n)\n(?!\n|\s*.|\s*\d+\.\s)', ' ', t)`: every match is a
      single newline, and lookarounds read the original text. */
  function MergeLines(t: string): (r: string)
    ensures |r| == |t|
  {
    seq(|t|, p requires 0 <= p < |t| => if MergeableNewline(t, p) then ' ' else t[p])
  }

  /** The merge rewrite matches at `p` exactly when `p` holds the final
      character of the text, a newline that does not follow another newline:
      the alternative `\s*.` accepts any following character. */
  lemma MergeableOnlyAtEnd(t: string, p: nat)
    requires p < |t|
    ensures MergeableNewline(t, p) <==> p == |t| - 1 && t[p] == '\n' && (p == 0 || t[p - 1] != '\n')
  {
    if p + 1 < |t| {
      assert t[p + 1] == '\n' || SpacesThenAnyChar(t, p + 1);
    }
  }

  /** So no newline other than a lone final one is ever joined to the next line. */
  lemma MergeRewritesOnlyFinalNewline(t: string)
    ensures forall p :: 0 <= p < |t| - 1 ==> MergeLines(t)[p] == t[p]
  {
    forall p | 0 <= p < |t| - 1 ensures MergeLines(t)[p] == t[p] {
      MergeableOnlyAtEnd(t, p);
    }
  }

  // ---------------------------------------------------------- normalisation

  /** Every whitespace character is a plain space. */
  predicate SpacesAreBlanks(s: string) {
    forall k :: 0 <= k < |s| && IsSpace(s[k]) ==> s[k] == ' '
  }

  /** No two whitespace characters are adjacent. */
  predicate NoDoubleSpace(s: string) {
    forall k :: 0 <= k < |s| - 1 && IsSpace(s[k]) ==> !IsSpace(s[k + 1])
  }

  /** The shape of cleaned text: no whitespace at either end, no newline or
      other whitespace but single spaces between non-space characters. */
  predicate IsNormal(s: string) {
    && (|s| == 0 || (!IsSpace(s[0]) && !IsSpace(s[|s| - 1])))
    && SpacesAreBlanks(s)
    && NoDoubleSpace(s)
  }

  /** `re.sub(r'\s+', ' ', t).strip()` */
  function Normalize(t: string): string {
    Strip(CollapseRuns(t, IsSpace))
  }

  lemma SliceKeepsSpacing(s: string, a: nat, b: nat)
    requires a <= b <= |s|
    requires SpacesAreBlanks(s) && NoDoubleSpace(s)
    ensures SpacesAreBlanks(s[a..b]) && NoDoubleSpace(s[a..b])
  {
    var r := s[a..b];
    forall k | 0 <= k < |r| - 1 && IsSpace(r[k]) ensures !IsSpace(r[k + 1]) {
      assert r[k] == s[a + k] && r[k + 1] == s[a + k + 1];
    }
  }

  /** Normalised text has the cleaned shape. */
  lemma NormalizeIsNormal(t: string)
    ensures IsNormal(Normalize(t))
  {
    var c := CollapseRuns(t, IsSpace);
    var a := RunEnd(c, 0, IsSpace);
    var r := Strip(c);
    SliceKeepsSpacing(c, a, a + |r|);
  }

  lemma {:induction false} CollapseKeepsSpacedText(s: string)
    requires SpacesAreBlanks(s) && NoDoubleSpace(s)
    ensures CollapseRuns(s, IsSpace) == s
    decreases |s|
  {
    if |s| > 0 {
      SliceKeepsSpacing(s, 1, |s|);
      CollapseKeepsSpacedText(s[1..]);
      if IsSpace(s[0]) {
        assert RunEnd(s, 0, IsSpace) == 1;
      }
      assert s == [s[0]] + s[1..];
    }
  }

  /** A run of whitespace between two non-space characters becomes exactly
      one space, and the text on either side is normalised on its own. */
  lemma NormalizeAtRun(a: string, w: string, b: string)
    requires |a| > 0 && !IsSpace(a[|a| - 1])
    requires |w| > 0 && forall k :: 0 <= k < |w| ==> IsSpace(w[k])
    requires |b| > 0 && !IsSpace(b[0])
    ensures Normalize(a + w + b) == Normalize(a) + " " + Normalize(b)
  {
    CollapseAtRun(a, w, b, IsSpace);
    CollapseKeepsLast(a, IsSpace);
    StripAroundSpace(CollapseRuns(a, IsSpace), CollapseRuns(b, IsSpace));
  }

  /** Normalising text that is already normal changes nothing. */
  lemma NormalizeFixesNormal(s: string)
    requires IsNormal(s)
    ensures Normalize(s) == s
  {
    CollapseKeepsSpacedText(s);
  }

  /** `a` and `b` differ at most by one whitespace character standing for another. */
  ghost predicate SameUpToSpace(a: string, b: string) {
    |a| == |b| && forall k :: 0 <= k < |a| ==> a[k] == b[k] || (IsSpace(a[k]) && IsSpace(b[k]))
  }

  lemma {:induction false} RunEndSameUpToSpace(a: string, b: string, i: nat)
    requires SameUpToSpace(a, b) && i <= |a|
    ensures RunEnd(a, i, IsSpace) == RunEnd(b, i, IsSpace)
    decreases |a| - i
  {
    if i < |a| && IsSpace(a[i]) {
      RunEndSameUpToSpace(a, b, i + 1);
    }
  }

  lemma {:induction false} CollapseSameUpToSpace(a: string, b: string)
    requires SameUpToSpace(a, b)
    ensures CollapseRuns(a, IsSpace) == CollapseRuns(b, IsSpace)
    decreases |a|
  {
    if |a| > 0 {
      if IsSpace(a[0]) {
        var e := RunEnd(a, 0, IsSpace);
        RunEndSameUpToSpace(a, b, 0);
        CollapseSameUpToSpace(a[e..], b[e..]);
      } else {
        CollapseSameUpToSpace(a[1..], b[1..]);
      }
    }
  }

  /** The merge rewrite makes no difference once whitespace is normalised:
      it only ever turns one whitespace character into another. */
  lemma MergeIsInvisible(t: string)
    ensures Normalize(MergeLines(t)) == Normalize(t)
  {
    CollapseSameUpToSpace(MergeLines(t), t);
  }

  /** Texts that differ only in which whitespace character stands where keep
      the same non-space characters, in the same order. */
  lemma {:induction false} FilterSameUpToSpace(a: string, b: string, q: char -> bool)
    requires SameUpToSpace(a, b)
    requires forall c :: q(c) ==> !IsSpace(c)
    ensures Filter(a, q) == Filter(b, q)
    decreases |a|
  {
    if |a| > 0 {
      FilterSameUpToSpace(a[1..], b[1..], q);
    }
  }

  // ------------------------------------------------------------- whole page

  /** `clean_page_text(text, common_headers, common_footers)` */
  function CleanPageText(text: string, headers: set<string>, footers: set<string>): (r: string)
    ensures IsNormal(r)
  {
    var kept := DropRunningLines(Lines(text), headers, footers);
    var joined := Join(kept, '\n');
    var merged := MergeLines(Dehyphenate(joined));
    NormalizeIsNormal(merged);
    Normalize(merged)
  }

  /** Cleaning text that already has the cleaned shape returns it unchanged,
      unless the whole text is itself a header or footer line. */
  lemma CleanNormalText(s: string, headers: set<string>, footers: set<string>)
    requires IsNormal(s)
    ensures CleanPageText(s, headers, footers) == if s in headers || s in footers then "" else s
  {
    assert '\n' !in s by {
      forall k | 0 <= k < |s| ensures s[k] != '\n' {
        if IsSpace(s[k]) {
          assert s[k] == ' ';
        }
      }
    }
    SplitWithoutSeparator(s, '\n');
    var kept := DropRunningLines(Lines(s), headers, footers);
    var joined := Join(kept, '\n');
    if s in headers || s in footers {
      assert kept == [];
      assert Dehyphenate(joined) == [];
      NormalizeFixesNormal(MergeLines([]));
    } else {
      assert kept == [s];
      DehyphenateWithoutBreak(s);
      assert MergeLines(s) == s;
      NormalizeFixesNormal(s);
    }
  }

  /** With no running headers or footers every line is kept, so cleaning is
      de-hyphenation, the merge rewrite and normalisation of the text itself. */
  lemma CleanWithoutRunningLines(text: string)
    ensures CleanPageText(text, {}, {}) == Normalize(MergeLines(Dehyphenate(text)))
  {
    var lines := Lines(text);
    FilterOfAll(lines, KeepLine({}, {}));
  }

  /** Without running lines, text that is normal up to whitespace once
      de-hyphenated cleans to that normal text. */
  lemma CleanToNormal(text: string, s: string)
    requires IsNormal(s)
    requires SameUpToSpace(Dehyphenate(text), s)
    ensures CleanPageText(text, {}, {}) == s
  {
    var d := Dehyphenate(text);
    CleanWithoutRunningLines(text);
    MergeIsInvisible(d);
    CollapseSameUpToSpace(d, s);
    NormalizeFixesNormal(s);
  }

  lemma CategoryShape(s: string)
    requires s == "category"
    ensures IsNormal(s) && SameUpToSpace(s, s)
  {
  }

  /** The example of a word broken across two lines. */
  lemma CleanJoinsBrokenWord()
    ensures CleanPageText("cate-\ngory", {}, {}) == "category"
  {
    DehyphenateJoinsWord();
    CategoryShape("category");
    CleanToNormal("cate-\ngory", "category");
  }

  lemma ListShape(t: string, s: string)
    requires t == "end.\n1. First item" && s == "end. 1. First item"
    ensures IsNormal(s) && SameUpToSpace(t, s) && '-' !in t
  {
    ListIsNormal(s);
    assert forall k :: 0 <= k < |t| && k != 4 ==> t[k] == s[k];
  }

  lemma ListIsNormal(s: string)
    requires s == "end. 1. First item"
    ensures IsNormal(s)
  {
  }

  /** A line break before a numbered list item does not survive cleaning:
      whitespace normalisation turns every newline into a space. */
  lemma CleanFlattensListBreak()
    ensures CleanPageText("end.\n1. First item", {}, {}) == "end. 1. First item"
  {
    ListShape("end.\n1. First item", "end. 1. First item");
    DehyphenateWithoutBreak("end.\n1. First item");
    CleanToNormal("end.\n1. First item", "end. 1. First item");
  }

  /** Empty text cleans to empty text. */
  lemma CleanEmpty(headers: set<string>, footers: set<string>)
    ensures CleanPageText("", headers, footers) == ""
  {
    CleanNormalText("", headers, footers);
  }

  /** Cleaning is idempotent: a second pass returns the first pass's output,
      except that an output that is itself a header or footer is dropped. */
  lemma CleanTwice(text: string, headers: set<string>, footers: set<string>)
    ensures var once := CleanPageText(text, headers, footers);
      CleanPageText(once, headers, footers) == if once in headers || once in footers then "" else once
  {
    CleanNormalText(CleanPageText(text, headers, footers), headers, footers);
  }

  /** Cleaning removes only whitespace and the hyphens of words broken across
      lines: every other character of the lines it keeps comes out unchanged
      and in order, punctuation and non-ASCII letters included. */
  lemma CleanKeepsText(text: string, headers: set<string>, footers: set<string>)
    ensures Filter(CleanPageText(text, headers, footers), IsNotSpaceOrHyphen)
         == Filter(Join(DropRunningLines(Lines(text), headers, footers), '\n'), IsNotSpaceOrHyphen)
  {
    var joined := Join(DropRunningLines(Lines(text), headers, footers), '\n');
    var d := Dehyphenate(joined);
    DehyphenateKeepsWords(joined);
    MergeKeepsText(d);
    NormalizeKeepsText(MergeLines(d));
  }

  /** The merge rewrite changes no character but whitespace: every other
      character, hyphens included, is kept in order. */
  lemma MergeKeepsText(d: string)
    ensures Filter(MergeLines(d), IsNotSpace) == Filter(d, IsNotSpace)
    ensures Filter(MergeLines(d), IsNotSpaceOrHyphen) == Filter(d, IsNotSpaceOrHyphen)
  {
    FilterSameUpToSpace(MergeLines(d), d, IsNotSpace);
    FilterSameUpToSpace(MergeLines(d), d, IsNotSpaceOrHyphen);
  }

  /** Normalisation changes no character but whitespace: every other
      character, hyphens included, is kept in order. */
  lemma NormalizeKeepsText(m: string)
    ensures Filter(Normalize(m), IsNotSpace) == Filter(m, IsNotSpace)
    ensures Filter(Normalize(m), IsNotSpaceOrHyphen) == Filter(m, IsNotSpaceOrHyphen)
  {
    CollapseRunsKeeps(m, IsSpace, IsNotSpace);
    StripKeeps(CollapseRuns(m, IsSpace), IsNotSpace);
    CollapseRunsKeeps(m, IsSpace, IsNotSpaceOrHyphen);
    StripKeeps(CollapseRuns(m, IsSpace), IsNotSpaceOrHyphen);
  }

}

=== FILE: seqs.dfy ===
/** Order-preserving filtering of sequences, as done by a Python list
    comprehension with an `if` clause or by an append loop guarded by a test. */
module Seqs {

  /** The elements of `s` that satisfy `p`, in their original order. */
  function Filter<T>(s: seq<T>, p: T -> bool): (r: seq<T>)
    ensures |r| <= |s|
    ensures forall k :: 0 <= k < |r| ==> p(r[k])
  {
    if |s| == 0 then []
    else (if p(s[0]) then [s[0]] else []) + Filter(s[1..], p)
  }

  /** `a` can be obtained from `b` by deleting elements (greedy matching is complete). */
  ghost predicate IsSubsequence<T>(a: seq<T>, b: seq<T>)
    decreases |b|
  {
    |a| == 0 || (|b| > 0 && (if a[0] == b[0] then IsSubsequence(a[1..], b[1..]) else IsSubsequence(a, b[1..])))
  }

  /** Filtering keeps exactly the satisfying elements, each as often as it occurs. */
  lemma {:induction false} FilterCounts<T>(s: seq<T>, p: T -> bool)
    ensures forall x :: multiset(Filter(s, p))[x] == if p(x) then multiset(s)[x] else 0
    ensures forall x :: x in Filter(s, p) <==> x in s && p(x)
  {
    if |s| > 0 {
      FilterCounts(s[1..], p);
      assert s == [s[0]] + s[1..];
      assert multiset(s) == multiset{s[0]} + multiset(s[1..]);
    }
  }

  /** Filtering keeps the survivors in their original order. */
  lemma {:induction false} FilterIsSubsequence<T>(s: seq<T>, p: T -> bool)
    ensures IsSubsequence(Filter(s, p), s)
  {
    if |s| > 0 {
      FilterIsSubsequence(s[1..], p);
      var r := Filter(s, p);
      if p(s[0]) {
        assert r == [s[0]] + Filter(s[1..], p);
        assert r[1..] == Filter(s[1..], p);
      } else {
        assert r == Filter(s[1..], p);
        if |r| > 0 {
          assert p(r[0]);
          assert r[0] != s[0];
        }
      }
    }
  }

  /** A test every element passes keeps the whole sequence. */
  lemma {:induction false} FilterOfAll<T>(s: seq<T>, p: T -> bool)
    requires forall k :: 0 <= k < |s| ==> p(s[k])
    ensures Filter(s, p) == s
  {
    if |s| > 0 {
      FilterOfAll(s[1..], p);
      assert s == [s[0]] + s[1..];
    }
  }

  /** Filtering leaves nothing exactly when no element passes. */
  lemma {:induction false} FilterEmpty<T>(s: seq<T>, p: T -> bool)
    ensures |Filter(s, p)| == 0 <==> forall k :: 0 <= k < |s| ==> !p(s[k])
  {
    if |s| > 0 {
      FilterEmpty(s[1..], p);
      if !p(s[0]) {
        forall k | 0 < k < |s| ensures !p(s[k]) <==> !p(s[1..][k - 1]) {
        }
      }
    }
  }

  /** Filtering distributes over concatenation. */
  lemma {:induction false} FilterConcat<T>(a: seq<T>, b: seq<T>, p: T -> bool)
    ensures Filter(a + b, p) == Filter(a, p) + Filter(b, p)
  {
    if |a| == 0 {
      assert a + b == b;
    } else {
      assert (a + b)[0] == a[0];
      assert (a + b)[1..] == a[1..] + b;
      FilterConcat(a[1..], b, p);
    }
  }

  /** The sequences of `xss` joined end to end, in order. */
  function Flatten<T>(xss: seq<seq<T>>): seq<T> {
    if |xss| == 0 then [] else xss[0] + Flatten(xss[1..])
  }

  /** Flattening distributes over concatenation: the elements of earlier
      sequences come first. */
  lemma {:induction false} FlattenAppend<T>(a: seq<seq<T>>, b: seq<seq<T>>)
    ensures Flatten(a + b) == Flatten(a) + Flatten(b)
  {
    if |a| == 0 {
      assert a + b == b;
    } else {
      assert (a + b)[0] == a[0];
      assert (a + b)[1..] == a[1..] + b;
      FlattenAppend(a[1..], b);
    }
  }

  /** `x` is an element of one of the sequences of `xss`. */
  ghost predicate InSome<T>(xss: seq<seq<T>>, x: T) {
    exists k :: 0 <= k < |xss| && x in xss[k]
  }

  /** An element is in the flattening exactly when it is in one of the sequences. */
  lemma {:induction false} FlattenMembers<T>(xss: seq<seq<T>>)
    ensures forall x :: x in Flatten(xss) <==> InSome(xss, x)
  {
    if |xss| > 0 {
      FlattenMembers(xss[1..]);
      assert Flatten(xss) == xss[0] + Flatten(xss[1..]);
      forall x | x in Flatten(xss) ensures InSome(xss, x) {
        if x !in xss[0] {
          assert InSome(xss[1..], x);
          var k :| 0 <= k < |xss[1..]| && x in xss[1..][k];
          assert x in xss[k + 1];
        }
      }
      forall x | InSome(xss, x) ensures x in Flatten(xss) {
        var k :| 0 <= k < |xss| && x in xss[k];
        if k > 0 {
          assert x in xss[1..][k - 1];
          assert InSome(xss[1..], x);
        }
      }
    }
  }
}

=== FILE: tables.dfy ===
/** Conversion of an extracted table into row records (`format_tables_as_json`). */
module Tables {
  import opened Wrappers
  import opened Seqs
  import opened Text

  /** A cell as extracted: possibly missing (`None`). */
  type Cell = Option<string>
  type Row = seq<Cell>
  /** The header row followed by the data rows. */
  type Table = seq<Row>
  /** One data row keyed by cleaned header. */
  type Record = map<string, string>

  /** The class `[\n\r]` used for header cells. */
  predicate IsLineBreak(c: char) {
    c == '\n' || c == '\r'
  }

  /** The class `[n\r]` used for data cells: the letter `n`, not a newline. */
  predicate IsLetterNOrCR(c: char) {
    c == 'n' || c == '\r'
  }

  /** The characters a data cell keeps for certain: neither whitespace nor the
      letter `n`. */
  predicate IsCellText(c: char) {
    !IsSpace(c) && c != 'n'
  }

  /** The name given to a blank header cell, `f"column-{i}"`. */
  function Placeholder(i: nat): string {
    "column-" + Decimal(i)
  }

  /** Blank header cells at different positions get different names. */
  lemma PlaceholderInjective(i: nat, j: nat)
    requires Placeholder(i) == Placeholder(j)
    ensures i == j
  {
    assert Decimal(i) == Placeholder(i)[7..];
    assert Decimal(j) == Placeholder(j)[7..];
    DecimalInjective(i, j);
  }

  /** Header cell `i`: line-break runs become one space and the result is
      stripped; a missing or empty cell is named by its position. */
  function CleanHeader(h: Cell, i: nat): (r: string)
    ensures h.None? || h.value == "" ==> r == Placeholder(i)
    ensures h.Some? && h.value != "" ==> forall k :: 0 <= k < |r| ==> !IsLineBreak(r[k])
    ensures h.Some? && h.value != "" ==> |r| == 0 || (!IsSpace(r[0]) && !IsSpace(r[|r| - 1]))
    ensures h.Some? && h.value != "" ==> Filter(r, IsNotSpace) == Filter(h.value, IsNotSpace)
  {
    match h
    case None => Placeholder(i)
    case Some(s) =>
      if s == "" then Placeholder(i)
      else
        var c := CollapseRuns(s, IsLineBreak);
        assert forall k :: 0 <= k < |c| ==> !IsLineBreak(c[k]);
        CollapseRunsKeeps(s, IsLineBreak, IsNotSpace);
        StripKeeps(c, IsNotSpace);
        Strip(c)
  }

  /** A header holding only whitespace is cleaned to "" and is not given a
      placeholder name, because only a falsy cell is. */
  lemma CleanHeaderOfBlank(s: string, i: nat)
    requires s != ""
    requires forall k :: 0 <= k < |s| ==> IsSpace(s[k])
    ensures CleanHeader(Some(s), i) == ""
  {
    FilterOfNone(s, IsNotSpace);
  }

  /** A header broken across lines is joined with exactly one space in
      place of each run of line breaks. */
  lemma CleanHeaderJoinsLines(a: string, w: string, b: string, i: nat)
    requires |a| > 0 && !IsSpace(a[0]) && !IsSpace(a[|a| - 1])
    requires |b| > 0 && !IsSpace(b[0]) && !IsSpace(b[|b| - 1])
    requires forall k :: 0 <= k < |a| ==> !IsLineBreak(a[k])
    requires forall k :: 0 <= k < |b| ==> !IsLineBreak(b[k])
    requires |w| > 0 && forall k :: 0 <= k < |w| ==> IsLineBreak(w[k])
    ensures CleanHeader(Some(a + w + b), i) == a + " " + b
  {
    StripCollapseAtRun(a, w, b, IsLineBreak);
  }

  /** A header already on one line and without edge whitespace is kept as it is. */
  lemma CleanHeaderKeepsPlainText(s: string, i: nat)
    requires s != ""
    requires '\n' !in s && '\r' !in s
    requires !IsSpace(s[0]) && !IsSpace(s[|s| - 1])
    ensures CleanHeader(Some(s), i) == s
  {
    assert forall k :: 0 <= k < |s| ==> !IsLineBreak(s[k]);
    CollapseRunsWithoutRun(s, IsLineBreak);
  }

  /** The cleaned header row, in column order. */
  function CleanHeaders(headers: Row): (r: seq<string>)
    ensures |r| == |headers|
    ensures forall i :: 0 <= i < |r| ==> r[i] == CleanHeader(headers[i], i)
  {
    seq(|headers|, i requires 0 <= i < |headers| => CleanHeader(headers[i], i))
  }

  /** Two blank header cells never produce the same column name. */
  lemma BlankHeadersDistinct(headers: Row, i: nat, j: nat)
    requires i < |headers| && j < |headers| && i != j
    requires headers[i].None? || headers[i].value == ""
    requires headers[j].None? || headers[j].value == ""
    ensures CleanHeaders(headers)[i] != CleanHeaders(headers)[j]
  {
    if Placeholder(i) == Placeholder(j) {
      PlaceholderInjective(i, j);
    }
  }

  /** A data cell: runs of the letter `n` or carriage returns become one space
      and the result is stripped; a missing or empty cell becomes "". */
  function CleanCell(c: Cell): (r: string)
    ensures c.None? || c.value == "" ==> r == ""
    ensures forall k :: 0 <= k < |r| ==> !IsLetterNOrCR(r[k])
    ensures |r| == 0 || (!IsSpace(r[0]) && !IsSpace(r[|r| - 1]))
    ensures c.Some? ==> Filter(r, IsCellText) == Filter(c.value, IsCellText)
  {
    match c
    case None => ""
    case Some(s) =>
      if s == "" then ""
      else
        var d := CollapseRuns(s, IsLetterNOrCR);
        assert forall k :: 0 <= k < |d| ==> !IsLetterNOrCR(d[k]);
        CollapseRunsKeeps(s, IsLetterNOrCR, IsCellText);
        StripKeeps(d, IsCellText);
        Strip(d)
  }

  /** A cell holding only whitespace and the letter `n` is cleaned to "". */
  lemma CleanCellOfBlank(s: string)
    requires forall k :: 0 <= k < |s| ==> !IsCellText(s[k])
    ensures CleanCell(Some(s)) == ""
  {
    FilterOfNone(s, IsCellText);
  }

  /** Each run of the letter `n` and carriage returns inside a cell becomes
      exactly one space. */
  lemma CleanCellJoinsAtRun(a: string, w: string, b: string)
    requires |a| > 0 && !IsSpace(a[0]) && !IsSpace(a[|a| - 1])
    requires |b| > 0 && !IsSpace(b[0]) && !IsSpace(b[|b| - 1])
    requires forall k :: 0 <= k < |a| ==> !IsLetterNOrCR(a[k])
    requires forall k :: 0 <= k < |b| ==> !IsLetterNOrCR(b[k])
    requires |w| > 0 && forall k :: 0 <= k < |w| ==> IsLetterNOrCR(w[k])
    ensures CleanCell(Some(a + w + b)) == a + " " + b
  {
    StripCollapseAtRun(a, w, b, IsLetterNOrCR);
  }

  /** A cell without the letter `n`, carriage returns or edge whitespace is kept as it is. */
  lemma CleanCellKeepsPlainText(s: string)
    requires 'n' !in s && '\r' !in s
    requires |s| == 0 || (!IsSpace(s[0]) && !IsSpace(s[|s| - 1]))
    ensures CleanCell(Some(s)) == s
  {
    assert forall k :: 0 <= k < |s| ==> !IsLetterNOrCR(s[k]);
    CollapseRunsWithoutRun(s, IsLetterNOrCR);
  }

  lemma NineCollapsed(s: string)
    requires s == "nine"
    ensures CollapseRuns(s, IsLetterNOrCR) == " i e"
  {
    RunEndIs(s, 0, IsLetterNOrCR, 1);
    RunEndIs(s, 2, IsLetterNOrCR, 3);
    assert CollapseRuns(s[3..], IsLetterNOrCR) == "e";
    assert CollapseRuns(s[2..], IsLetterNOrCR) == " e";
  }

  lemma NineStripped(s: string)
    requires s == " i e"
    ensures Strip(s) == "i e"
  {
    RunEndIs(s, 0, IsSpace, 1);
    assert s[1..] == "i e";
  }

  /** The class matches the letter `n`: the cell "nine" comes out as "i e". */
  lemma CleanCellSplitsAtLetterN()
    ensures CleanCell(Some("nine")) == "i e"
  {
    NineCollapsed("nine");
    NineStripped(" i e");
  }

  /** The class does not match a newline: a newline inside a cell survives. */
  lemma CleanCellKeepsNewline()
    ensures CleanCell(Some("a\nb")) == "a\nb"
  {
    CleanCellKeepsPlainText("a\nb");
  }

  /** The cleaned value of column `i` of a data row; "" past the row's end. */
  function CellValue(row: Row, i: nat): string {
    if i < |row| then CleanCell(row[i]) else ""
  }

  /** No later column carries the same header as column `k`. */
  predicate LastWithHeader(headers: seq<string>, k: nat)
    requires k < |headers|
  {
    forall j :: k < j < |headers| ==> headers[j] != headers[k]
  }

  /** The dictionary built by assigning `values[i]` to `keys[i]` for each
      `i` in turn: a repeated key keeps its last value. */
  function Assign(keys: seq<string>, values: seq<string>): map<string, string>
    requires |keys| == |values|
    decreases |keys|
  {
    if |keys| == 0 then map[]
    else
      var n := |keys| - 1;
      Assign(keys[..n], values[..n])[keys[n] := values[n]]
  }

  /** The assigned keys are exactly the keys listed. */
  lemma {:induction false} AssignKeys(keys: seq<string>, values: seq<string>)
    requires |keys| == |values|
    ensures Assign(keys, values).Keys == set h | h in keys
    decreases |keys|
  {
    if |keys| > 0 {
      var n := |keys| - 1;
      AssignKeys(keys[..n], values[..n]);
      assert keys == keys[..n] + [keys[n]];
    }
  }

  /** A key holds the value of its last assignment. */
  lemma {:induction false} AssignLastWins(keys: seq<string>, values: seq<string>, k: nat)
    requires |keys| == |values|
    requires k < |keys| && LastWithHeader(keys, k)
    ensures keys[k] in Assign(keys, values)
    ensures Assign(keys, values)[keys[k]] == values[k]
    decreases |keys|
  {
    var n := |keys| - 1;
    if k < n {
      var front := keys[..n];
      assert front[k] == keys[k];
      assert LastWithHeader(front, k) by {
        forall j | k < j < |front| ensures front[j] != front[k] {
          assert front[j] == keys[j];
        }
      }
      AssignLastWins(front, values[..n], k);
      assert values[..n][k] == values[k];
    }
  }

  /** The cleaned cell under each header position. */
  function CellValues(headers: seq<string>, row: Row): (r: seq<string>)
    ensures |r| == |headers|
    ensures forall i :: 0 <= i < |r| ==> r[i] == CellValue(row, i)
  {
    seq(|headers|, i requires 0 <= i < |headers| => CellValue(row, i))
  }

  /** The record of one data row: each cleaned header in turn is assigned
      the cleaned cell of its column. */
  function RowRecord(headers: seq<string>, row: Row): Record {
    Assign(headers, CellValues(headers, row))
  }

  /** The record's keys are exactly the headers. */
  lemma RowRecordKeys(headers: seq<string>, row: Row)
    ensures RowRecord(headers, row).Keys == set h | h in headers
  {
    AssignKeys(headers, CellValues(headers, row));
  }

  /** A header maps to the cell of the last column carrying it. */
  lemma RowRecordLastWins(headers: seq<string>, row: Row, k: nat)
    requires k < |headers| && LastWithHeader(headers, k)
    ensures headers[k] in RowRecord(headers, row)
    ensures RowRecord(headers, row)[headers[k]] == CellValue(row, k)
  {
    AssignLastWins(headers, CellValues(headers, row), k);
  }

  /** With distinct headers, every column's cell is found under its header. */
  lemma RowRecordDistinctHeaders(headers: seq<string>, row: Row, k: nat)
    requires k < |headers|
    requires forall i, j :: 0 <= i < j < |headers| ==> headers[i] != headers[j]
    ensures headers[k] in RowRecord(headers, row)
    ensures RowRecord(headers, row)[headers[k]] == CellValue(row, k)
  {
    RowRecordLastWins(headers, row, k);
  }

  /** `any(row_data.values())`: some value of the record is non-empty. */
  predicate HasValue(m: Record) {
    exists h :: h in m && m[h] != ""
  }

  /** The record of every data row, in row order. */
  function RowRecords(headers: seq<string>, rows: seq<Row>): (r: seq<Record>)
    ensures |r| == |rows|
    ensures forall k :: 0 <= k < |rows| ==> r[k] == RowRecord(headers, rows[k])
  {
    seq(|rows|, k requires 0 <= k < |rows| => RowRecord(headers, rows[k]))
  }

  /** `format_tables_as_json(table_data)`: the records of the data rows that
      hold some value, or `None` when the table is empty or no row has one. */
  function FormatTable(t: Table): (r: Option<seq<Record>>)
    ensures |t| == 0 ==> r.None?
    ensures r.Some? ==> |r.value| > 0
    ensures r.Some? ==> forall j :: 0 <= j < |r.value| ==> HasValue(r.value[j])
  {
    if |t| == 0 then None
    else
      var records := Filter(RowRecords(CleanHeaders(t[0]), t[1..]), HasValue);
      if |records| == 0 then None else Some(records)
  }

  /** No records are produced exactly when every data row is blank. */
  lemma FormatTableNoneWhenBlank(t: Table)
    requires |t| > 0
    ensures var all := RowRecords(CleanHeaders(t[0]), t[1..]);
      FormatTable(t).None? <==> forall k :: 0 <= k < |all| ==> !HasValue(all[k])
  {
    FilterEmpty(RowRecords(CleanHeaders(t[0]), t[1..]), HasValue);
  }

  /** The records produced are those of the data rows holding some value, in
      row order and with their multiplicity. */
  lemma FormatTableKeepsRowsWithValues(t: Table)
    requires FormatTable(t).Some?
    ensures var all := RowRecords(CleanHeaders(t[0]), t[1..]);
      && IsSubsequence(FormatTable(t).value, all)
      && forall m :: multiset(FormatTable(t).value)[m] == if HasValue(m) then multiset(all)[m] else 0
  {
    var all := RowRecords(CleanHeaders(t[0]), t[1..]);
    FilterCounts(all, HasValue);
    FilterIsSubsequence(all, HasValue);
  }

  /** Every record produced is keyed by all the cleaned headers. */
  lemma FormatTableKeys(t: Table)
    requires FormatTable(t).Some?
    ensures forall j :: 0 <= j < |FormatTable(t).value| ==>
      FormatTable(t).value[j].Keys == set h | h in CleanHeaders(t[0])
  {
    var headers := CleanHeaders(t[0]);
    var all := RowRecords(headers, t[1..]);
    var r := FormatTable(t).value;
    FilterCounts(all, HasValue);
    forall j | 0 <= j < |r| ensures r[j].Keys == set h | h in headers {
      assert r[j] in all;
      var k :| 0 <= k < |all| && all[k] == r[j];
      RowRecordKeys(headers, t[1..][k]);
    }
  }

  // ------------------------------------------------------------- example

  lemma ExampleHeaderCells(s: string, n: nat)
    requires s == "Name" && n == 1
    ensures CleanHeader(Some(s), 0) == s
    ensures Placeholder(n) == "column-1"
  {
    CleanHeaderKeepsPlainText(s, 0);
    assert Decimal(n) == "1";
  }

  lemma ExampleHeaders(row: Row)
    requires row == [Some("Name"), Some("")]
    ensures CleanHeaders(row) == ["Name", "column-1"]
  {
    ExampleHeaderCells("Name", 1);
    var headers := CleanHeaders(row);
    assert headers[0] == "Name";
    assert headers[1] == "column-1";
  }

  lemma ExampleCell(s: string)
    requires s == "Alice" || s == "30"
    ensures CleanCell(Some(s)) == s
  {
    CleanCellKeepsPlainText(s);
  }

  lemma ExampleCells(row: Row)
    requires row == [Some("Alice"), Some("30")]
    ensures CellValue(row, 0) == "Alice" && CellValue(row, 1) == "30"
  {
    ExampleCell("Alice");
    ExampleCell("30");
  }

  lemma ExampleRecord(headers: seq<string>, row: Row)
    requires headers == ["Name", "column-1"] && row == [Some("Alice"), Some("30")]
    ensures RowRecord(headers, row) == map["Name" := "Alice", "column-1" := "30"]
  {
    ExampleCells(row);
    RowRecordKeys(headers, row);
    RowRecordLastWins(headers, row, 0);
    RowRecordLastWins(headers, row, 1);
    var m := RowRecord(headers, row);
    assert (set h | h in headers) == {"Name", "column-1"};
    TwoKeyRecord(m, "Name", "Alice", "column-1", "30");
  }

  lemma TwoKeyRecord(m: Record, k1: string, v1: string, k2: string, v2: string)
    requires m.Keys == {k1, k2}
    requires m[k1] == v1 && m[k2] == v2
    ensures m == map[k1 := v1, k2 := v2]
  {
  }

  lemma ExampleTable(t: Table, m: Record)
    requires t == [[Some("Name"), Some("")], [Some("Alice"), Some("30")]]
    requires m == map["Name" := "Alice", "column-1" := "30"]
    ensures FormatTable(t) == Some([m])
  {
    ExampleHeaders(t[0]);
    ExampleRecord(CleanHeaders(t[0]), t[1]);
    assert m["Name"] == "Alice";
    assert HasValue(m);
    assert RowRecords(CleanHeaders(t[0]), t[1..]) == [m];
    FilterOfAll([m], HasValue);
  }

  /** A blank second header cell is named after its position. */
  lemma FormatTableExample()
    ensures FormatTable([[Some("Name"), Some("")], [Some("Alice"), Some("30")]])
         == Some([map["Name" := "Alice", "column-1" := "30"]])
  {
    ExampleTable([[Some("Name"), Some("")], [Some("Alice"), Some("30")]], map["Name" := "Alice", "column-1" := "30"]);
  }
}

=== FILE: text.dfy ===
/** Character classes and string helpers shared by the cleaning steps:
    Python's whitespace (`str.strip`, the `\s` class), an ASCII reading of the
    `\w` and `\d` classes, `str.split`/`str.join` on one separator, the run
    rewriting done by `re.sub(r'[class]+', ' ', s)`, and `str(n)` for naturals. */
module Text {
  import opened Seqs

  /** Python's whitespace: the characters `str.isspace`, `str.strip()` and `\s` accept. */
  predicate IsSpace(c: char) {
    || ('\t' <= c <= '\r')
    || ('\U{1C}' <= c <= '\U{1F}')
    || c == ' ' || c == '\U{85}' || c == '\U{A0}' || c == '\U{1680}'
    || ('\U{2000}' <= c <= '\U{200A}')
    || c == '\U{2028}' || c == '\U{2029}' || c == '\U{202F}' || c == '\U{205F}' || c == '\U{3000}'
  }

  /** The `\d` class, read as ASCII digits. */
  predicate IsDigit(c: char) {
    '0' <= c <= '9'
  }

  /** The `\w` class, read as ASCII letters, digits and underscore. */
  predicate IsWordChar(c: char) {
    ('a' <= c <= 'z') || ('A' <= c <= 'Z') || IsDigit(c) || c == '_'
  }

  predicate IsNotSpace(c: char) {
    !IsSpace(c)
  }

  /** The end of the longest run of characters satisfying `p` that starts at `i`. */
  function RunEnd(s: string, i: nat, p: char -> bool): (e: nat)
    requires i <= |s|
    ensures i <= e <= |s|
    ensures forall k :: i <= k < e ==> p(s[k])
    ensures e == |s| || !p(s[e])
    decreases |s| - i
  {
    if i < |s| && p(s[i]) then RunEnd(s, i + 1, p) else i
  }

  /** A run is determined by where it starts: any maximal run from `i` ends where `RunEnd` says. */
  lemma RunEndIs(s: string, i: nat, p: char -> bool, e: nat)
    requires i <= e <= |s|
    requires forall k :: i <= k < e ==> p(s[k])
    requires e == |s| || !p(s[e])
    ensures RunEnd(s, i, p) == e
  {
  }

  /** `s.rstrip()` */
  function TrimRight(s: string): (r: string)
    ensures |r| <= |s| && r == s[..|r|]
    ensures r == [] || !IsSpace(r[|r| - 1])
    ensures forall k :: |r| <= k < |s| ==> IsSpace(s[k])
  {
    if |s| > 0 && IsSpace(s[|s| - 1]) then
      var r := TrimRight(s[..|s| - 1]);
      assert s[..|s| - 1][..|r|] == s[..|r|];
      r
    else s
  }

  /** `s.strip()`: the infix left once whitespace is removed from both ends. */
  function Strip(s: string): (r: string)
    ensures var a := RunEnd(s, 0, IsSpace);
      && a + |r| <= |s|
      && r == s[a..a + |r|]
      && (forall k :: 0 <= k < a ==> IsSpace(s[k]))
      && (forall k :: a + |r| <= k < |s| ==> IsSpace(s[k]))
    ensures r == [] || (!IsSpace(r[0]) && !IsSpace(r[|r| - 1]))
    ensures (|s| == 0 || (!IsSpace(s[0]) && !IsSpace(s[|s| - 1]))) ==> r == s
  {
    var a := RunEnd(s, 0, IsSpace);
    TrimRight(s[a..])
  }

  /** `re.sub(r'[class]+', ' ', s)` where `inRun` is the class: every maximal
      run of class characters becomes one space; other characters are copied. */
  function CollapseRuns(s: string, inRun: char -> bool): (r: string)
    ensures |r| <= |s|
    ensures |r| == 0 <==> |s| == 0
    ensures |s| > 0 ==> r[0] == if inRun(s[0]) then ' ' else s[0]
    ensures forall k :: 0 <= k < |r| && inRun(r[k]) ==> r[k] == ' '
    ensures forall k :: 0 <= k < |r| - 1 && inRun(r[k]) ==> !inRun(r[k + 1])
    decreases |s|
  {
    if |s| == 0 then []
    else if inRun(s[0]) then [' '] + CollapseRuns(s[RunEnd(s, 0, inRun)..], inRun)
    else [s[0]] + CollapseRuns(s[1..], inRun)
  }

  /** A string without class characters is left alone by `CollapseRuns`. */
  lemma {:induction false} CollapseRunsWithoutRun(s: string, inRun: char -> bool)
    requires forall k :: 0 <= k < |s| ==> !inRun(s[k])
    ensures CollapseRuns(s, inRun) == s
    decreases |s|
  {
    if |s| > 0 {
      CollapseRunsWithoutRun(s[1..], inRun);
    }
  }

  /** Rewriting runs never touches a character that is neither in the class
      nor a space: the subsequence of such characters is unchanged. */
  lemma {:induction false} CollapseRunsKeeps(s: string, inRun: char -> bool, q: char -> bool)
    requires forall c :: q(c) ==> !inRun(c)
    requires !q(' ')
    ensures Filter(CollapseRuns(s, inRun), q) == Filter(s, q)
    decreases |s|
  {
    if |s| > 0 {
      if inRun(s[0]) {
        var e := RunEnd(s, 0, inRun);
        CollapseRunsKeeps(s[e..], inRun, q);
        FilterConcat([' '], CollapseRuns(s[e..], inRun), q);
        assert s == s[..e] + s[e..];
        FilterConcat(s[..e], s[e..], q);
        FilterOfNone(s[..e], q);
      } else {
        CollapseRunsKeeps(s[1..], inRun, q);
        FilterConcat([s[0]], CollapseRuns(s[1..], inRun), q);
        assert s == [s[0]] + s[1..];
        FilterConcat([s[0]], s[1..], q);
      }
    }
  }

  /** Rewriting runs works piece by piece wherever the cut does not split a
      run: when `x` ends, or `y` starts, outside the class. */
  lemma {:induction false} CollapseRunsAppend(x: string, y: string, inRun: char -> bool)
    requires |x| == 0 || |y| == 0 || !inRun(x[|x| - 1]) || !inRun(y[0])
    ensures CollapseRuns(x + y, inRun) == CollapseRuns(x, inRun) + CollapseRuns(y, inRun)
    decreases |x|
  {
    if |x| == 0 {
      assert x + y == y;
    } else {
      var e, head := CollapseRunsAppendStep(x, y, inRun);
      var rest := x[e..];
      CollapseRunsAppend(rest, y, inRun);
      AppendAssoc(head, CollapseRuns(rest, inRun), CollapseRuns(y, inRun));
    }
  }

  lemma AppendAssoc<T>(a: seq<T>, b: seq<T>, c: seq<T>)
    ensures a + (b + c) == (a + b) + c
  {
  }

  lemma DropOfConcat<T>(x: seq<T>, y: seq<T>, e: nat)
    requires e <= |x|
    ensures (x + y)[e..] == x[e..] + y
  {
  }

  /** One step of `CollapseRuns` over `x + y`: the first character or run of
      `x` is rewritten as it is in `x` alone. */
  lemma CollapseRunsAppendStep(x: string, y: string, inRun: char -> bool) returns (e: nat, head: string)
    requires |x| > 0
    requires |y| == 0 || !inRun(x[|x| - 1]) || !inRun(y[0])
    ensures 0 < e <= |x|
    ensures |x[e..]| == 0 || |y| == 0 || !inRun(x[e..][|x[e..]| - 1]) || !inRun(y[0])
    ensures CollapseRuns(x, inRun) == head + CollapseRuns(x[e..], inRun)
    ensures CollapseRuns(x + y, inRun) == head + CollapseRuns(x[e..] + y, inRun)
  {
    var xy := x + y;
    assert xy[0] == x[0];
    if inRun(x[0]) {
      e, head := RunEnd(x, 0, inRun), " ";
      RunEndIs(xy, 0, inRun, e);
      DropOfConcat(x, y, e);
    } else {
      e, head := 1, [x[0]];
      DropOfConcat(x, y, 1);
    }
  }

  /** `re.sub(r'[class]+', ' ', a + w + b)` where `w` is a whole run of the
      class: the run becomes exactly one space and both sides are rewritten
      on their own. */
  lemma CollapseAtRun(a: string, w: string, b: string, inRun: char -> bool)
    requires |a| == 0 || !inRun(a[|a| - 1])
    requires |w| > 0 && forall k :: 0 <= k < |w| ==> inRun(w[k])
    requires |b| == 0 || !inRun(b[0])
    ensures CollapseRuns(a + w + b, inRun) == CollapseRuns(a, inRun) + " " + CollapseRuns(b, inRun)
  {
    AppendAssoc(a, w, b);
    CollapseRunsAppend(a, w + b, inRun);
    CollapseRun(w, b, inRun);
    AppendAssoc(CollapseRuns(a, inRun), " ", CollapseRuns(b, inRun));
  }

  /** A leading whole run becomes one space. */
  lemma CollapseRun(w: string, b: string, inRun: char -> bool)
    requires |w| > 0 && forall k :: 0 <= k < |w| ==> inRun(w[k])
    requires |b| == 0 || !inRun(b[0])
    ensures CollapseRuns(w + b, inRun) == " " + CollapseRuns(b, inRun)
  {
    RunEndIs(w + b, 0, inRun, |w|);
    DropOfConcat(w, b, |w|);
    assert w[|w|..] == [];
  }

  /** `re.sub(r'[class]+', ' ', a + w + b).strip()` for a whole run `w`
      between two texts that hold no class character and no edge whitespace:
      the two texts joined by exactly one space. */
  lemma StripCollapseAtRun(a: string, w: string, b: string, inRun: char -> bool)
    requires |a| > 0 && !IsSpace(a[0]) && !IsSpace(a[|a| - 1])
    requires |b| > 0 && !IsSpace(b[0]) && !IsSpace(b[|b| - 1])
    requires forall k :: 0 <= k < |a| ==> !inRun(a[k])
    requires forall k :: 0 <= k < |b| ==> !inRun(b[k])
    requires |w| > 0 && forall k :: 0 <= k < |w| ==> inRun(w[k])
    ensures Strip(CollapseRuns(a + w + b, inRun)) == a + " " + b
  {
    PlainCollapseAtRun(a, w, b, inRun);
    var j := a + " " + b;
    assert j[0] == a[0] && j[|j| - 1] == b[|b| - 1];
    StripOfTrimmed(j);
  }

  lemma PlainCollapseAtRun(a: string, w: string, b: string, inRun: char -> bool)
    requires forall k :: 0 <= k < |a| ==> !inRun(a[k])
    requires forall k :: 0 <= k < |b| ==> !inRun(b[k])
    requires |w| > 0 && forall k :: 0 <= k < |w| ==> inRun(w[k])
    ensures CollapseRuns(a + w + b, inRun) == a + " " + b
  {
    CollapseAtRun(a, w, b, inRun);
    CollapseRunsWithoutRun(a, inRun);
    CollapseRunsWithoutRun(b, inRun);
  }

  lemma StripOfTrimmed(s: string)
    requires |s| == 0 || (!IsSpace(s[0]) && !IsSpace(s[|s| - 1]))
    ensures Strip(s) == s
  {
  }

  /** A final character outside the class is kept as the final character. */
  lemma CollapseKeepsLast(s: string, inRun: char -> bool)
    requires |s| > 0 && !inRun(s[|s| - 1])
    ensures var r := CollapseRuns(s, inRun); |r| > 0 && r[|r| - 1] == s[|s| - 1]
  {
    var init := s[..|s| - 1];
    assert s == init + [s[|s| - 1]];
    CollapseRunsAppend(init, [s[|s| - 1]], inRun);
    assert CollapseRuns([s[|s| - 1]], inRun) == [s[|s| - 1]];
  }

  /** `strip()` of text framed by whitespace on both sides returns the frame's
      content when that content has no whitespace at either end. */
  lemma StripFramed(s: string, p: string, m: string, q: string)
    requires s == p + m + q
    requires forall k :: 0 <= k < |p| ==> IsSpace(p[k])
    requires forall k :: 0 <= k < |q| ==> IsSpace(q[k])
    requires |m| == 0 || (!IsSpace(m[0]) && !IsSpace(m[|m| - 1]))
    ensures Strip(s) == m
  {
    var r := Strip(s);
    var a := RunEnd(s, 0, IsSpace);
    if |m| > 0 {
      assert s[|p|] == m[0];
      RunEndIs(s, 0, IsSpace, |p|);
      assert s[|p| + |m| - 1] == m[|m| - 1];
      assert |r| == |m|;
      assert r == s[|p|..|p| + |m|];
    }
  }

  /** Stripping around one space that joins two texts ending and starting
      with non-space characters strips each side alone. */
  lemma StripAroundSpace(x: string, y: string)
    requires |x| > 0 && !IsSpace(x[|x| - 1])
    requires |y| > 0 && !IsSpace(y[0])
    ensures Strip(x + " " + y) == Strip(x) + " " + Strip(y)
  {
    var mx := Strip(x);
    var ax := RunEnd(x, 0, IsSpace);
    assert ax + |mx| == |x|;
    assert x == x[..ax] + mx;
    var my := Strip(y);
    assert RunEnd(y, 0, IsSpace) == 0;
    assert y == my + y[|my|..];
    assert x + " " + y == x[..ax] + (mx + " " + my) + y[|my|..];
    StripFramed(x + " " + y, x[..ax], mx + " " + my, y[|my|..]);
  }

  lemma {:induction false} FilterOfNone(s: string, q: char -> bool)
    requires forall k :: 0 <= k < |s| ==> !q(s[k])
    ensures Filter(s, q) == []
    decreases |s|
  {
    if |s| > 0 {
      FilterOfNone(s[1..], q);
    }
  }

  /** Characters failing `q` on both sides of `y` do not change what `Filter` keeps. */
  lemma FilterOfFramed(x: string, y: string, z: string, q: char -> bool)
    requires forall k :: 0 <= k < |x| ==> !q(x[k])
    requires forall k :: 0 <= k < |z| ==> !q(z[k])
    ensures Filter(x + y + z, q) == Filter(y, q)
  {
    FilterConcat(x + y, z, q);
    FilterConcat(x, y, q);
    FilterOfNone(x, q);
    FilterOfNone(z, q);
    assert [] + Filter(y, q) + [] == Filter(y, q);
  }

  /** Stripping removes only whitespace: the non-space subsequence is unchanged. */
  lemma StripKeeps(s: string, q: char -> bool)
    requires forall c :: q(c) ==> !IsSpace(c)
    ensures Filter(Strip(s), q) == Filter(s, q)
  {
    var r := Strip(s);
    var a := RunEnd(s, 0, IsSpace);
    var b := a + |r|;
    assert s == s[..a] + s[a..b] + s[b..];
    FilterOfFramed(s[..a], r, s[b..], q);
  }

  /** `t[i:].startswith(prefix)` */
  predicate StartsWith(t: string, i: nat, prefix: string)
    decreases |prefix|
  {
    |prefix| == 0 || (i < |t| && t[i] == prefix[0] && StartsWith(t, i + 1, prefix[1..]))
  }

  /** `StartsWith` means the characters of `t` from `i` on spell out `prefix`. */
  lemma {:induction false} StartsWithChars(t: string, i: nat, prefix: string)
    requires i <= |t|
    ensures StartsWith(t, i, prefix) <==> i + |prefix| <= |t| && forall j :: 0 <= j < |prefix| ==> t[i + j] == prefix[j]
    decreases |prefix|
  {
    if |prefix| > 0 && i < |t| {
      var rest := prefix[1..];
      StartsWithChars(t, i + 1, rest);
      if StartsWith(t, i, prefix) {
        forall j | 0 <= j < |prefix| ensures t[i + j] == prefix[j] {
          if j > 0 {
            assert t[i + 1 + (j - 1)] == rest[j - 1];
          }
        }
      }
      if i + |prefix| <= |t| && forall j :: 0 <= j < |prefix| ==> t[i + j] == prefix[j] {
        forall j | 0 <= j < |rest| ensures t[i + 1 + j] == rest[j] {
          assert t[i + (j + 1)] == prefix[j + 1];
        }
        assert t[i + 0] == prefix[0];
      }
    }
  }

  /** `'<sep>'.join(parts)` */
  function Join(parts: seq<string>, sep: char): string
  {
    if |parts| == 0 then ""
    else if |parts| == 1 then parts[0]
    else parts[0] + [sep] + Join(parts[1..], sep)
  }

  /** Joining a part in front of a non-empty list puts one separator between. */
  lemma JoinCons(x: string, parts: seq<string>, sep: char)
    requires |parts| > 0
    ensures Join([x] + parts, sep) == x + [sep] + Join(parts, sep)
  {
    assert ([x] + parts)[1..] == parts;
  }

  /** Joined parts without edge whitespace start with the first part's first
      character and end with the last part's last character. */
  lemma {:induction false} JoinEdges(parts: seq<string>, sep: char)
    requires |parts| > 0
    requires forall k :: 0 <= k < |parts| ==> |parts[k]| > 0
    ensures var j := Join(parts, sep);
      && |j| > 0
      && j[0] == parts[0][0]
      && j[|j| - 1] == parts[|parts| - 1][|parts[|parts| - 1]| - 1]
    decreases |parts|
  {
    if |parts| > 1 {
      JoinEdges(parts[1..], sep);
    }
  }

  /** A trailing space makes no difference once the text is stripped. */
  lemma StripTrailingSpace(x: string)
    ensures Strip(x + " ") == Strip(x)
  {
    var a := RunEnd(x, 0, IsSpace);
    var m := Strip(x);
    var tail := x[a + |m|..];
    assert x == x[..a] + m + tail;
    assert x + " " == x[..a] + m + (tail + " ");
    StripFramed(x + " ", x[..a], m, tail + " ");
  }

  /** `s.split(sep)` for a one-character separator: always at least one piece,
      no piece holds the separator, and joining the pieces gives `s` back. */
  function Split(s: string, sep: char): (r: seq<string>)
    ensures |r| > 0
    ensures forall k :: 0 <= k < |r| ==> sep !in r[k]
    ensures Join(r, sep) == s
  {
    if |s| == 0 then [""]
    else
      var rest := Split(s[1..], sep);
      if s[0] == sep then
        assert ([""] + rest)[1..] == rest;
        [""] + rest
      else
        var r := [[s[0]] + rest[0]] + rest[1..];
        assert r[1..] == rest[1..];
        assert s == [s[0]] + s[1..];
        r
  }

  /** The lines of a page: `text.split('\n')`. */
  function Lines(text: string): seq<string> {
    Split(text, '\n')
  }

  lemma {:induction false} SplitWithoutSeparator(s: string, sep: char)
    requires sep !in s
    ensures Split(s, sep) == [s]
    decreases |s|
  {
    if |s| > 0 {
      SplitWithoutSeparator(s[1..], sep);
      assert s == [s[0]] + s[1..];
    }
  }

  lemma {:induction false} SplitAfterPiece(a: string, b: string, sep: char)
    requires sep !in a
    ensures Split(a + [sep] + b, sep) == [a] + Split(b, sep)
    decreases |a|
  {
    var s := a + [sep] + b;
    if |a| == 0 {
      assert s[1..] == b;
    } else {
      assert s[1..] == a[1..] + [sep] + b;
      SplitAfterPiece(a[1..], b, sep);
      assert [s[0]] + a[1..] == a;
    }
  }

  /** Joining pieces that hold no separator and splitting again gives the pieces back. */
  lemma {:induction false} SplitJoin(parts: seq<string>, sep: char)
    requires |parts| > 0
    requires forall k :: 0 <= k < |parts| ==> sep !in parts[k]
    ensures Split(Join(parts, sep), sep) == parts
    decreases |parts|
  {
    if |parts| == 1 {
      SplitWithoutSeparator(parts[0], sep);
    } else {
      SplitJoin(parts[1..], sep);
      SplitAfterPiece(parts[0], Join(parts[1..], sep), sep);
      assert [parts[0]] + parts[1..] == parts;
    }
  }

  function DigitChar(d: nat): (c: char)
    requires d < 10
    ensures IsDigit(c)
  {
    ('0' as int + d) as char
  }

  function DigitValue(c: char): int {
    c as int - '0' as int
  }

  /** `str(n)` for a natural number: its decimal digits, most significant first. */
  function Decimal(n: nat): (r: string)
    ensures |r| > 0
    ensures forall k :: 0 <= k < |r| ==> IsDigit(r[k])
  {
    if n < 10 then [DigitChar(n)] else Decimal(n / 10) + [DigitChar(n % 10)]
  }

  /** The value of a string of decimal digits, `int(s)`. */
  function ParseDecimal(s: string): int {
    if |s| == 0 then 0 else ParseDecimal(s[..|s| - 1]) * 10 + DigitValue(s[|s| - 1])
  }

  /** Reading back the decimal rendering of `n` gives `n`. */
  lemma {:induction false} DecimalRoundTrip(n: nat)
    ensures ParseDecimal(Decimal(n)) == n
  {
    if n >= 10 {
      DecimalRoundTrip(n / 10);
      var d := Decimal(n);
      assert d[..|d| - 1] == Decimal(n / 10);
    }
  }

  /** Distinct naturals have distinct renderings. */
  lemma DecimalInjective(m: nat, n: nat)
    requires Decimal(m) == Decimal(n)
    ensures m == n
  {
    DecimalRoundTrip(m);
    DecimalRoundTrip(n);
  }

}

=== FILE: wrappers.dfy ===
/** The optional value used wherever the Python code returns `None` or a value. */
module Wrappers {

  datatype Option<+T> = None | Some(value: T)

}
